=== FILE: README.md ===
# Loopio MCP server: request assembly, query strings, handler bodies, start-up

This project models in Dafny the part of the Loopio MCP server that carries
checkable behaviour:

- the API client's one network entry point, `request`: how it builds the URL,
  the headers, the method and the body of a call, and how it settles on a
  response (error message, empty object for `204 No Content`, or parsed JSON);
- the twelve client methods that turn optional arguments into a query string
  with `URLSearchParams`, including the `application/x-www-form-urlencoded`
  serializer itself (section 5.2 of the WHATWG URL Standard), modelled
  concretely down to UTF-8 percent-encoding;
- the reshaping the MCP tool handlers do before calling the client: the
  merge-variable flag, the library entry body and its location, bulk creation,
  the project bodies with `description || null`, the project entry body with
  its optional answer, and the update objects;
- the configuration defaults and the start-up gate and order of `main`.

Modules, one file each:

| module | file | what it holds |
|---|---|---|
| `Wrappers` | wrappers.dfy | `Option` |
| `Decimal` | decimal.dfy | `Number.prototype.toString()` for integers, and its parser |
| `JsValue` | js_value.dfy | JSON values, `string \| null`, JavaScript truthiness, `x \|\| d`, template text |
| `UrlEncoding` | url_encoding.dfy | the form-urlencoded serializer and a splitter that reads it back |
| `QueryParams` | query_params.dfy | tuple lists built group by group, `getAll` as the reading view, `path?query` |
| `Endpoints` | endpoints.dfy | the twelve query builders and the endpoints they request |
| `HttpRequest` | http_request.dfy | `request`: request assembly and response classification |
| `ObjectLiteral` | object_literal.dfy | objects built property by property, `undefined` dropping the key |
| `ToolHandlers` | tool_handlers.dfy | the handler bodies |
| `Startup` | startup.dfy | configuration defaults and `main` |

Outside code is a parameter: `JSON.stringify` is `stringify: Json -> string`,
`response.json()` is `parse: string -> Option<Json>` (`None` for a body that
is not JSON), `fetch` is `send: Request -> Response`, and the token fetch and
the transport connection of `main` are an optional token and a success flag.

An object is modelled as its map from keys to values: a property whose value
is `undefined` is absent from the map, as it is absent from the JSON text
`JSON.stringify` produces. A query is read back the way the receiving side
reads it, with `getAll(key)` (`QueryParams.ValuesOf`), and the builders'
contracts state what each key reads back, the order of the keys, and when the
list is empty.

## Model

| member | source | states |
|---|---|---|
| Decimal.IntToString | src/loopio-client.ts:89 | the decimal text of an integer is non-empty, starts with `-` exactly for a negative number, and is digits otherwise, with no leading zero (`0` is written `0`) |
| Decimal.ParseIntToString | src/loopio-client.ts:89 | the decimal text of every integer reads back as that integer |
| Decimal.IntToStringInjective | src/loopio-client.ts:176 | two numbers with the same decimal text are equal, so `owners` values identify the owners |
| JsValue.OrElse | src/loopio-client.ts:53 | `s \|\| fallback` is the string when it is non-empty and the fallback when it is empty or undefined |
| JsValue.NullableText | src/index.ts:104 | a null answer text is JSON `null` and any other text is that string |
| UrlEncoding.EncodeChar | src/loopio-client.ts:95 | an alphanumeric or one of `*-._` is kept, a space becomes `+`, any other code point becomes one `%XX` escape per UTF-8 byte, in order; the output uses only encoded characters |
| UrlEncoding.Serialize | src/loopio-client.ts:95 | the serialized query is empty exactly when there are no tuples |
| UrlEncoding.SerializeAlphabet | src/loopio-client.ts:95-97 | a serialized query contains only encoded characters, `=` and `&`, and never `?` or `#` |
| UrlEncoding.SplitSerialize | src/loopio-client.ts:95 | splitting a non-empty serialized query at `&` gives back the encoded tuples, one per tuple, in order |
| UrlEncoding.SplitPair | src/loopio-client.ts:95 | splitting an encoded tuple at `=` gives back its encoded name and encoded value |
| UrlEncoding.EncodeUnreserved | src/loopio-client.ts:89 | text made of alphanumerics and `*-._` is sent unchanged |
| UrlEncoding.SerializePageQuery | src/loopio-client.ts:129-133 | a page and a page size with no characters to escape serialize as `page=<page>&pageSize=<pageSize>` |
| Endpoints.IntToStringUnreserved | src/loopio-client.ts:129-131 | a decimal number is written without any escape |
| Endpoints.HistoriesPageQuery | src/loopio-client.ts:128-133 | with a non-zero page and page size the history query string is exactly `page=<page>&pageSize=<pageSize>` |
| QueryParams.Repeated | src/loopio-client.ts:107 | appending every element of an array under one key gives one tuple per element, in order, all under that key |
| QueryParams.ReadsGroup | src/loopio-client.ts:169-177 | when the keys of the appended groups are distinct, `getAll` of a group's key returns exactly that group's values |
| QueryParams.EmitInOrder | src/loopio-client.ts:169-177 | tuples appear grouped in the order their keys were appended |
| QueryParams.EmitEmpty | src/loopio-client.ts:169-177 | nothing is appended exactly when every group is empty |
| QueryParams.ValuesOfEmitAbsent | src/loopio-client.ts:169-177 | a key no group uses reads back nothing |
| QueryParams.NumberValue | src/loopio-client.ts:89 | a number contributes one value, its decimal text, exactly when it is truthy, so `0` is dropped |
| QueryParams.TextValue | src/loopio-client.ts:151 | a string contributes itself exactly when it is non-empty |
| QueryParams.ListValue | src/loopio-client.ts:106-108 | an array contributes its elements in order; an empty or absent array contributes nothing |
| QueryParams.WithQuery | src/loopio-client.ts:97 | the endpoint starts with the path and has `?` after it exactly when there are tuples |
| QueryParams.WithQuerySplits | src/loopio-client.ts:95-97 | splitting the endpoint at its first `?` gives back the path and the serialized query, and the endpoint contains `?` exactly when there are tuples |
| QueryParams.AlwaysWithQuery | src/loopio-client.ts:199 | appending `?` unconditionally to a non-empty query gives the same endpoint as appending it only when the query is non-empty |
| Endpoints.ResourcePath | src/loopio-client.ts:112 | `/base/<id>` holds no `?`, and the identifier reads back from the text after the slash |
| Endpoints.DecimalTexts | src/loopio-client.ts:176 | each owner becomes its decimal text, in order |
| Endpoints.JsonValue | src/loopio-client.ts:92-93 | `filter` contributes its JSON text exactly when it is truthy |
| Endpoints.ListLibraryEntriesQuery | src/loopio-client.ts:88-95 | `page`, `pageSize` and `filter` each read back their value when truthy and nothing otherwise, in that key order; no tuples exactly when all three are falsy |
| Endpoints.ListLibraryEntriesEndpoint | src/loopio-client.ts:95-98 | `/libraryEntries` and the query are recovered from the endpoint, which has `?` exactly when there are tuples |
| Endpoints.InlineQuery | src/loopio-client.ts:105-108 | `inline[]` reads back every element of `inline`, in order, and the query is empty exactly when the list is absent or empty; `getProjectEntry` (src/loopio-client.ts:267-270) builds the same query |
| Endpoints.GetLibraryEntryEndpoint | src/loopio-client.ts:110-113 | the entry path and the query are recovered from the endpoint, which has `?` exactly when there are tuples |
| Endpoints.LibraryEntryHistoriesQuery | src/loopio-client.ts:128-133 | `page` and `pageSize` read back their value when truthy, in that order; no tuples exactly when both are falsy |
| Endpoints.LibraryEntryHistoriesEndpoint | src/loopio-client.ts:133-136 | the histories path and the query are recovered from the endpoint, which has `?` exactly when there are tuples |
| Endpoints.TextQuery | src/loopio-client.ts:150-153 | the key reads back the string when it is non-empty, and there are no tuples otherwise; `getProject` (`fields`, src/loopio-client.ts:184-187) and `listCustomProjectFields` (`source`, src/loopio-client.ts:231-234) build the same query |
| Endpoints.ListStacksEndpoint | src/loopio-client.ts:153-154 | `/stacks` and the query are recovered from the endpoint, which has `?` exactly when there are tuples |
| Endpoints.ListProjectsQuery | src/loopio-client.ts:169-179 | `page` and `pageSize` read back when truthy, `rfxTypes` every type and `owners` every owner's decimal text, in that key order; no tuples exactly when all four are falsy or empty |
| Endpoints.ListProjectsEndpoint | src/loopio-client.ts:179-180 | `/projects` and the query are recovered from the endpoint, which has `?` exactly when there are tuples |
| Endpoints.GetProjectEndpoint | src/loopio-client.ts:187-188 | the project path and the query are recovered from the endpoint, which has `?` exactly when there are tuples |
| Endpoints.ProjectSummaryListQuery | src/loopio-client.ts:196-197 | `lastUpdatedDateGt` always reads back the given date, so the query is never empty |
| Endpoints.ProjectSummaryListEndpoint | src/loopio-client.ts:199 | the endpoint always has `?`, and `/projects/summary` and the query are recovered from it |
| Endpoints.ListCustomProjectFieldsEndpoint | src/loopio-client.ts:234-235 | `/customProjectFields` and the query are recovered from the endpoint, which has `?` exactly when there are tuples |
| Endpoints.ListProjectEntriesQuery | src/loopio-client.ts:251-259 | the first tuple is always `projectId`; `sectionId`, `subSectionId`, `page` and `pageSize` read back when truthy and `inline[]` every element, in that key order |
| Endpoints.ListProjectEntriesEndpoint | src/loopio-client.ts:261-263 | the endpoint always has `?`, and `/projectEntries` and the query are recovered from it |
| Endpoints.GetProjectEntryEndpoint | src/loopio-client.ts:272-275 | the entry path and the query are recovered from the endpoint, which has `?` exactly when there are tuples |
| Endpoints.ListProjectSectionsQuery | src/loopio-client.ts:284-287 | the first tuple is always `projectId`; `page` and `pageSize` read back when truthy, in that order |
| Endpoints.ListProjectSectionsEndpoint | src/loopio-client.ts:289-291 | the endpoint always has `?`, and `/sections` and the query are recovered from it |
| Endpoints.ListProjectSubSectionsQuery | src/loopio-client.ts:305-309 | the first tuple is always `projectId`; `sectionId`, `page` and `pageSize` read back when truthy, in that order |
| Endpoints.ListProjectSubSectionsEndpoint | src/loopio-client.ts:311-313 | the endpoint always has `?`, and `/subSections` and the query are recovered from it |
| HttpRequest.BearerValue | src/loopio-client.ts:47 | the header value is `Bearer ` followed by the token, or by `undefined` when no token is set |
| HttpRequest.BuildHeaders | src/loopio-client.ts:46-50 | the header names are the two defaults and the caller's; a caller's header wins over a default of the same name, and a default not overridden keeps its value |
| HttpRequest.BuildRequest | src/loopio-client.ts:45-56 | the URL is the base URL followed by the endpoint, unchanged; the method is the caller's when non-empty and `GET` otherwise; a body is sent, stringified, exactly when the given body is truthy |
| HttpRequest.Settle | src/loopio-client.ts:58-70 | a status outside 200-299 rejects with a message from which the status and the status text read back and which ends with ` - ` and the body text; `204` resolves to the empty object; any other success resolves to the parsed body, or fails when it is not JSON |
| HttpRequest.FailureMessageStatus | src/loopio-client.ts:60-62 | the status code reads back from the error message |
| HttpRequest.FailureMessageBody | src/loopio-client.ts:60-62 | the error message ends with ` - ` and the raw body text |
| HttpRequest.FailureMessageStatusText | src/loopio-client.ts:60-62 | the status text sits in the error message between the status code and ` - ` |
| HttpRequest.FailureIgnoresParser | src/loopio-client.ts:58-63 | an unsuccessful response is rejected before any parsing: the parser cannot change the outcome |
| HttpRequest.NoContentIgnoresBody | src/loopio-client.ts:66-68 | every `204` response settles to the empty object, whatever its body |
| HttpRequest.DefaultHeaders | src/loopio-client.ts:46-48 | without caller headers exactly `Authorization` and `Content-Type: application/json` are sent |
| HttpRequest.PlainGet | src/loopio-client.ts:43-55 | a call without options is a `GET` without a body, carrying exactly `Authorization: Bearer <token>` and `Content-Type: application/json` |
| ObjectLiteral.With | src/index.ts:720-721 | writing a defined property adds its key with that value, an undefined one adds nothing, and every other key keeps its value |
| ToolHandlers.TextObject | src/index.ts:104 | `{ text }` has the single key `text`, and its value is `null` exactly for a null text |
| ToolHandlers.Questions | src/index.ts:103 | the questions array holds one `{ text }` per question, in order |
| ToolHandlers.Strings | src/index.ts:111 | a string array is sent element by element, in order |
| ToolHandlers.Record | src/index.ts:318-319 | a string record is sent with the same keys, each holding its string |
| ToolHandlers.OptionalId | src/index.ts:107 | `x && { k: { id: x } }` contributes `{ id }` exactly when the identifier is truthy, so `0` contributes nothing |
| ToolHandlers.MergeVariablesInline | src/index.ts:82 | the inline list is `["@mergeVariables"]` exactly when the flag is true, and undefined otherwise |
| ToolHandlers.MergeVariablesQuery | src/index.ts:82-83 | the entry request's query reads back `inline[]=@mergeVariables` exactly when the flag is true, and no `inline[]` otherwise |
| ToolHandlers.Location | src/index.ts:105-109 | the location always holds `stack: { id }`, and `category` and `subCategory` exactly when their identifiers are truthy |
| ToolHandlers.LibraryEntry | src/index.ts:102-111 | the entry body holds the questions, `answer: { text }` (null included) and the location, and `languageCode` and `tags` exactly when given |
| ToolHandlers.EntryFields | src/index.ts:102-111 | the entry object has exactly the required keys plus each optional key that is defined, each holding its value |
| ToolHandlers.BulkLibraryEntries | src/index.ts:203-213 | the bulk request holds one body per entry, in order, each the body a single create would send |
| ToolHandlers.BulkAnswers | src/index.ts:205 | every bulk body carries `answer: { text }` with the entry's (non-null) answer text |
| ToolHandlers.ProjectTypeName | src/index.ts:302 | each project type is sent as one of the six names the schema allows, and that name parses back to the type |
| ToolHandlers.ProjectTypeOf | src/index.ts:302 | a name is accepted exactly when it is one of `RFP`, `RFI`, `DDQ`, `SQ`, `PP`, `OTHER` |
| ToolHandlers.ProjectTypeNameInjective | src/index.ts:302 | distinct project types are sent under distinct names |
| ToolHandlers.DescriptionValue | src/index.ts:316 | `description \|\| null` is `null` exactly when the description is absent or empty |
| ToolHandlers.ProjectCore | src/index.ts:311-317 | a project body holds name, type, company, due date and description (possibly `null`), and `owner: { id }` exactly when the owner identifier is truthy |
| ToolHandlers.NewProject | src/index.ts:310-320 | the `createProject` body sends `name`, `projectType`, `companyName` and `dueDate` as given, plus the common part and each value map that is given |
| ToolHandlers.ProjectFromTemplate | src/index.ts:631-639 | the template body sends `name`, `projectType`, `companyName` and `dueDate` as given and holds the same keys as a new project without value maps, `description` and `owner` as there |
| ToolHandlers.TemplateAsNewProject | src/index.ts:631-639 | a project from a template is described exactly as a new project without value maps |
| ToolHandlers.OptionalAnswer | src/index.ts:704 | the answer is `{ text }` exactly when the answer text is defined, a null text included |
| ToolHandlers.NewProjectEntry | src/index.ts:698-705 | the entry body holds the project identifier and the question, each section identifier when defined (`0` included), and the answer exactly when the answer text is defined |
| ToolHandlers.ProjectEntryFields | src/index.ts:698-705 | the project entry object has exactly the required keys plus each defined optional key, each holding its value |
| ToolHandlers.NullAnswerSent | src/index.ts:704 | a null answer text is sent as `{ text: null }`, not dropped |
| ToolHandlers.ProjectEntryUpdate | src/index.ts:719-722 | the update holds exactly `question` and `answer` for the arguments that are defined, a null answer text included |
| ToolHandlers.SectionUpdate | src/index.ts:794-798 | the section (and subsection, src/index.ts:871-874) update holds exactly `name` and `position` for the arguments that are defined, a position of `0` included |
| Startup.LoadConfig | src/index.ts:12-16 | the base URL defaults to `https://api.loopio.com/data/v2`, each credential to the empty string, an empty variable counting as unset; no token is set |
| Startup.Main | src/index.ts:916-940 | without both credentials the run is a single exit with code 1; otherwise it starts with the token fetch, and it exits with code 1 exactly when the fetch or the connection fails; the refresh timer starts exactly when the fetch succeeds, and the transport connects exactly when the fetch and the connection both succeed; the run has one, two or three events, so the token is fetched at most once and nothing is retried |
| Startup.IndexOf | src/index.ts:924-931 | the position found is the first occurrence of the event |
| Startup.MainDisciplined | src/index.ts:924-931 | in every run the token fetch comes before the refresh timer, the timer before the connection, and an exit ends the run |
| Startup.NoCredentialsNoFetch | src/index.ts:918-921 | with an empty or unset credential no token is ever requested and the run ends with exit code 1 |
| Startup.StartedRequestsCarryToken | src/index.ts:925-931 | a successful start fetches, starts the timer and connects; at its end the configuration holds the fetched token, so a request without header overrides sends `Bearer <token>` |

## Left out

- The network: `fetch` is the parameter `send`, and `response.text()` is the response's `bodyText`. Rejections of `fetch` itself, time-outs and retries are not modelled.
- `JSON.stringify` and `response.json()`: both are parameters. Their text format is not modelled. A body that is not JSON settles as `Unparseable`, which stands for the rejected promise.
- Startup.StartedRequestsCarryToken: rests on the assumption, built into `Main`, that a successful `fetchAccessToken` stores its token in `config.accessToken`; the token fetch is outside code and that store is not in the modelled lines.
- HttpRequest.Call: carries no contract of its own; it is `Settle` applied to what `send` returns for `BuildRequest`, and both of those carry the contracts.
- JavaScript numbers: identifiers, pages and positions are integers. `NaN`, fractions, `-0` and exponent notation in `toString()` are not modelled.
- Strings are sequences of Unicode scalar values. JavaScript's UTF-16 strings and the replacement of lone surrogates by `URLSearchParams` are not modelled.
- Header names are compared exactly. Names differing only in case, such as a caller's `authorization` next to the default `Authorization`, are both kept and are both sent by `fetch`; the model keeps them as two keys and does not model how `fetch` combines them.
- Object key order: objects are maps. The wire order of properties does not change their meaning, and it is not modelled.
- The MCP glue: server, tool, resource and prompt registration, zod validation (such as `.min(1)` on questions), dotenv loading, and the `JSON.stringify(…, null, 2)` text the tools return.
- ToolHandlers.Questions: takes the question texts rather than the `{ text }` objects zod validates; the handler passes those objects through unchanged, so the body is the same.
- The token: `fetchAccessToken` and `startTokenRefresh` are not part of this model. `main` sees them as events, the fetch as yielding a token or failing; the refresh timer and its 59-minute period are not modelled, and `startTokenRefresh` is taken not to throw.
- Startup.Main: the log lines written to standard error are not modelled.
- The create, update and delete client methods the handlers call (`createLibraryEntry`, `updateProjectEntry`, `deleteFile` and the rest) are not part of this model; only the bodies the handlers hand them are.
- The client methods without a query string (`getCustomer`, `showFile`, `getProjectSummary` and the like) are plain `request` calls on a path built from their identifiers and are not modelled one by one.
- The `LoopioConfig` interface declares `accessToken` and no credentials, while the configuration is built with `clientId` and `clientSecret`; the model's `Config` holds all four fields, the token optional.

=== FILE: decimal.dfy ===
/** Decimal text of integers, as produced by `Number.prototype.toString()`
    on integral values, together with the parser that reads it back. */
module Decimal {

  import opened Wrappers

  predicate IsDigit(c: char) {
    '0' <= c <= '9'
  }

  predicate AllDigits(s: string) {
    forall i :: 0 <= i < |s| ==> IsDigit(s[i])
  }

  function DigitValue(c: char): (d: nat)
    requires IsDigit(c)
    ensures d < 10
  {
    c as int - '0' as int
  }

  function DigitChar(d: nat): (c: char)
    requires d < 10
    ensures IsDigit(c) && DigitValue(c) == d
  {
    ('0' as int + d) as char
  }

  /** Decimal digits of `n`, most significant first, without leading zeros. */
  function NatToString(n: nat): (s: string)
    ensures |s| > 0 && AllDigits(s)
    ensures s[0] == '0' ==> n == 0
    decreases n
  {
    if n < 10 then [DigitChar(n)] else NatToString(n / 10) + [DigitChar(n % 10)]
  }

  /** `String(i)`: a leading minus sign for negative values, then the digits. */
  function IntToString(i: int): (s: string)
    ensures |s| > 0
    ensures (s[0] == '-') <==> i < 0
    ensures forall k :: 0 < k < |s| ==> IsDigit(s[k])
    ensures i >= 0 ==> IsDigit(s[0])
    ensures i == 0 ==> s == "0"
    ensures i > 0 ==> s[0] != '0'
    ensures i < 0 ==> |s| > 1 && s[1] != '0'
  {
    if i < 0 then "-" + NatToString(-i) else NatToString(i)
  }

  function ParseNat(s: string): nat
    requires AllDigits(s)
    decreases |s|
  {
    if s == [] then 0 else ParseNat(s[..|s| - 1]) * 10 + DigitValue(s[|s| - 1])
  }

  /** Reads an optionally signed run of decimal digits; `None` when the text
      is not of that form. */
  function ParseInt(s: string): Option<int> {
    if |s| > 0 && s[0] == '-' then
      if |s| > 1 && AllDigits(s[1..]) then Some(-(ParseNat(s[1..]) as int)) else None
    else if |s| > 0 && AllDigits(s) then Some(ParseNat(s))
    else None
  }

  lemma {:induction false} ParseNatToString(n: nat)
    ensures ParseNat(NatToString(n)) == n
    decreases n
  {
    if n >= 10 {
      var s := NatToString(n);
      assert s[..|s| - 1] == NatToString(n / 10);
      ParseNatToString(n / 10);
    }
  }

  /** Reading back the text of any integer recovers that integer. */
  lemma ParseIntToString(i: int)
    ensures ParseInt(IntToString(i)) == Some(i)
  {
    if i < 0 {
      assert IntToString(i)[1..] == NatToString(-i);
      ParseNatToString(-i);
    } else {
      ParseNatToString(i);
    }
  }

  /** Distinct integers have distinct texts, so a value carried in a query
      parameter identifies the argument it came from. */
  lemma IntToStringInjective(a: int, b: int)
    requires IntToString(a) == IntToString(b)
    ensures a == b
  {
    ParseIntToString(a);
    ParseIntToString(b);
  }
}

=== FILE: endpoints.dfy ===
/** The endpoint text each query-building method of the API client hands to
    `request`: a resource path, and the method's optional arguments turned
    into an ordered list of query tuples. A value is appended only when it is
    truthy, each array element becomes its own tuple under a repeated key,
    and the list methods that always send `projectId` (or
    `lastUpdatedDateGt`) attach `?` unconditionally. */
module Endpoints {

  import opened Wrappers
  import opened Decimal
  import opened JsValue
  import opened UrlEncoding
  import opened QueryParams

  datatype LibraryEntryListParams = LibraryEntryListParams(page: Option<int>, pageSize: Option<int>, filter: Option<Json>)

  datatype PageParams = PageParams(page: Option<int>, pageSize: Option<int>)

  datatype ProjectListParams = ProjectListParams(
    page: Option<int>,
    pageSize: Option<int>,
    rfxTypes: Option<seq<string>>,
    owners: Option<seq<int>>)

  datatype ProjectEntryListParams = ProjectEntryListParams(
    projectId: int,
    sectionId: Option<int>,
    subSectionId: Option<int>,
    inline: Option<seq<string>>,
    page: Option<int>,
    pageSize: Option<int>)

  datatype SectionListParams = SectionListParams(projectId: int, page: Option<int>, pageSize: Option<int>)

  datatype SubSectionListParams = SubSectionListParams(
    projectId: int,
    sectionId: Option<int>,
    page: Option<int>,
    pageSize: Option<int>)

  /** `base/<id>`: a collection path followed by the decimal identifier. */
  function ResourcePath(base: string, id: int): (path: string)
    requires '?' !in base
    ensures '?' !in path
    ensures |path| > |base| + 1 && path[..|base|] == base && path[|base|] == '/'
    ensures ParseInt(path[|base| + 1..]) == Some(id)
  {
    var digits := IntToString(id);
    var path := base + "/" + digits;
    assert '?' !in digits by {
      forall k | 0 <= k < |digits|
        ensures digits[k] != '?'
      {
        if k == 0 { assert digits[0] == '-' || IsDigit(digits[0]); }
      }
    }
    assert path[|base| + 1..] == digits;
    ParseIntToString(id);
    path
  }

  /** The decimal texts of numbers, in order (`owner.toString()`). */
  function DecimalTexts(xs: seq<int>): (texts: seq<string>)
    ensures |texts| == |xs|
    ensures forall i :: 0 <= i < |xs| ==> texts[i] == IntToString(xs[i])
    decreases |xs|
  {
    if xs == [] then [] else [IntToString(xs[0])] + DecimalTexts(xs[1..])
  }

  /** The values `filter` contributes: its JSON text, when it is truthy. */
  function JsonValue(v: Option<Json>, stringify: Json -> string): (values: seq<string>)
    ensures |values| == (if Present(v) then 1 else 0)
    ensures Present(v) ==> values[0] == stringify(v.value)
  {
    if Present(v) then [stringify(v.value)] else []
  }

  // The key lists of the builders hold no key twice.

  lemma LibraryEntryKeysDistinct()
    ensures Distinct(["page", "pageSize", "filter"])
  {
  }

  lemma PageKeysDistinct()
    ensures Distinct(["page", "pageSize"])
  {
  }

  lemma ProjectKeysDistinct()
    ensures Distinct(["page", "pageSize", "rfxTypes", "owners"])
  {
  }

  lemma SectionKeysDistinct()
    ensures Distinct(["projectId", "page", "pageSize"])
  {
  }

  lemma SubSectionKeysDistinct()
    ensures Distinct(["projectId", "sectionId", "page", "pageSize"])
  {
  }

  lemma EntryKeysDistinct()
    ensures Distinct(["projectId", "sectionId", "subSectionId", "inline[]", "page", "pageSize"])
  {
  }

  /** The fixed collection paths hold no '?'. */
  lemma CollectionPathsPlain()
    ensures '?' !in "/libraryEntries" && '?' !in "/stacks" && '?' !in "/projects"
    ensures '?' !in "/customProjectFields"
  {
  }

  // ---------------------------------------------------------------- library

  function ListLibraryEntriesQuery(params: LibraryEntryListParams, stringify: Json -> string): (pairs: seq<Pair>)
    ensures ValuesOf(pairs, "page") == NumberValue(params.page)
    ensures ValuesOf(pairs, "pageSize") == NumberValue(params.pageSize)
    ensures ValuesOf(pairs, "filter") == JsonValue(params.filter, stringify)
    ensures InOrder(pairs, ["page", "pageSize", "filter"])
    ensures pairs == [] <==> !NumberGiven(params.page) && !NumberGiven(params.pageSize) && !Present(params.filter)
  {
    var groups := [
      ("page", NumberValue(params.page)),
      ("pageSize", NumberValue(params.pageSize)),
      ("filter", JsonValue(params.filter, stringify))];
    var pairs := Emit(groups);
    assert GroupKeys(groups) == ["page", "pageSize", "filter"];
    assert Distinct(GroupKeys(groups)) by { LibraryEntryKeysDistinct(); }
    assert ValuesOf(pairs, "page") == NumberValue(params.page) by {
      ReadsGroup(groups, 0);
    }
    assert ValuesOf(pairs, "pageSize") == NumberValue(params.pageSize) by {
      ReadsGroup(groups, 1);
    }
    assert ValuesOf(pairs, "filter") == JsonValue(params.filter, stringify) by {
      ReadsGroup(groups, 2);
    }
    assert InOrder(pairs, ["page", "pageSize", "filter"]) by {
      EmitInOrder(groups);
    }
    assert pairs == [] <==> !NumberGiven(params.page) && !NumberGiven(params.pageSize) && !Present(params.filter) by {
      EmitEmpty(groups);
    }
    pairs
  }

  function ListLibraryEntriesEndpoint(params: LibraryEntryListParams, stringify: Json -> string): (endpoint: string)
    ensures SplitEndpoint(endpoint) == ("/libraryEntries", Serialize(ListLibraryEntriesQuery(params, stringify)))
    ensures '?' in endpoint <==> ListLibraryEntriesQuery(params, stringify) != []
  {
    var path, pairs := "/libraryEntries", ListLibraryEntriesQuery(params, stringify);
    CollectionPathsPlain();
    WithQuerySplits(path, pairs);
    WithQuery(path, pairs)
  }

  /** The query of the single-entry getters: each element of `inline`
      under `inline[]` (`getLibraryEntry`, `getProjectEntry`). */
  function InlineQuery(inline: Option<seq<string>>): (pairs: seq<Pair>)
    ensures ValuesOf(pairs, "inline[]") == if inline.Some? then inline.value else []
    ensures InOrder(pairs, ["inline[]"])
    ensures pairs == [] <==> inline.None? || inline.value == []
  {
    var groups := [("inline[]", ListValue(inline))];
    var pairs := Emit(groups);
    assert GroupKeys(groups) == ["inline[]"];
    assert Distinct(GroupKeys(groups));
    assert ValuesOf(pairs, "inline[]") == if inline.Some? then inline.value else [] by {
      ReadsGroup(groups, 0);
    }
    assert InOrder(pairs, ["inline[]"]) by {
      EmitInOrder(groups);
    }
    assert pairs == [] <==> inline.None? || inline.value == [] by {
      EmitEmpty(groups);
    }
    pairs
  }

  function GetLibraryEntryEndpoint(libraryEntryId: int, inline: Option<seq<string>>): (endpoint: string)
    ensures SplitEndpoint(endpoint) == (ResourcePath("/libraryEntries", libraryEntryId), Serialize(InlineQuery(inline)))
    ensures '?' in endpoint <==> InlineQuery(inline) != []
  {
    var path, pairs := ResourcePath("/libraryEntries", libraryEntryId), InlineQuery(inline);
    WithQuerySplits(path, pairs);
    WithQuery(path, pairs)
  }

  function LibraryEntryHistoriesQuery(params: PageParams): (pairs: seq<Pair>)
    ensures ValuesOf(pairs, "page") == NumberValue(params.page)
    ensures ValuesOf(pairs, "pageSize") == NumberValue(params.pageSize)
    ensures InOrder(pairs, ["page", "pageSize"])
    ensures pairs == [] <==> !NumberGiven(params.page) && !NumberGiven(params.pageSize)
  {
    var groups := [("page", NumberValue(params.page)), ("pageSize", NumberValue(params.pageSize))];
    var pairs := Emit(groups);
    assert GroupKeys(groups) == ["page", "pageSize"];
    assert Distinct(GroupKeys(groups)) by { PageKeysDistinct(); }
    assert ValuesOf(pairs, "page") == NumberValue(params.page) by {
      ReadsGroup(groups, 0);
    }
    assert ValuesOf(pairs, "pageSize") == NumberValue(params.pageSize) by {
      ReadsGroup(groups, 1);
    }
    assert InOrder(pairs, ["page", "pageSize"]) by {
      EmitInOrder(groups);
    }
    assert pairs == [] <==> !NumberGiven(params.page) && !NumberGiven(params.pageSize) by {
      EmitEmpty(groups);
    }
    pairs
  }

  function LibraryEntryHistoriesEndpoint(libraryEntryId: int, params: PageParams): (endpoint: string)
    ensures SplitEndpoint(endpoint) == (ResourcePath("/libraryEntryHistories", libraryEntryId), Serialize(LibraryEntryHistoriesQuery(params)))
    ensures '?' in endpoint <==> LibraryEntryHistoriesQuery(params) != []
  {
    var path, pairs := ResourcePath("/libraryEntryHistories", libraryEntryId), LibraryEntryHistoriesQuery(params);
    WithQuerySplits(path, pairs);
    WithQuery(path, pairs)
  }

  /** A decimal number needs no escaping. */
  lemma IntToStringUnreserved(n: int)
    ensures AllUnreserved(IntToString(n))
  {
    var s := IntToString(n);
    forall i | 0 <= i < |s| ensures Unreserved(s[i]) {
      if i > 0 || n >= 0 {
        assert IsDigit(s[i]);
      }
    }
  }

  /** With both numbers given, the history query string is
      `page=<page>&pageSize=<pageSize>`. */
  lemma HistoriesPageQuery(page: int, pageSize: int)
    requires page != 0 && pageSize != 0
    ensures Serialize(LibraryEntryHistoriesQuery(PageParams(Some(page), Some(pageSize))))
      == "page" + "=" + IntToString(page) + "&" + "pageSize" + "=" + IntToString(pageSize)
  {
    var params := PageParams(Some(page), Some(pageSize));
    var pairs := LibraryEntryHistoriesQuery(params);
    var groups := [("page", [IntToString(page)]), ("pageSize", [IntToString(pageSize)])];
    assert Emit(groups[1..][1..]) == [];
    assert Emit(groups[1..]) == [("pageSize", IntToString(pageSize))];
    assert pairs == Emit(groups) == [("page", IntToString(page)), ("pageSize", IntToString(pageSize))];
    IntToStringUnreserved(page);
    IntToStringUnreserved(pageSize);
    SerializePageQuery(IntToString(page), IntToString(pageSize));
  }

  /** The query of a method whose one optional string goes under `key`
      (`fields` for `listStacks` and `getProject`, `source` for
      `listCustomProjectFields`). */
  function TextQuery(key: string, value: Option<string>): (pairs: seq<Pair>)
    ensures ValuesOf(pairs, key) == TextValue(value)
    ensures InOrder(pairs, [key])
    ensures pairs == [] <==> !TextGiven(value)
  {
    var groups := [(key, TextValue(value))];
    var pairs := Emit(groups);
    assert GroupKeys(groups) == [key];
    assert Distinct(GroupKeys(groups));
    assert ValuesOf(pairs, key) == TextValue(value) by {
      ReadsGroup(groups, 0);
    }
    assert InOrder(pairs, [key]) by {
      EmitInOrder(groups);
    }
    assert pairs == [] <==> !TextGiven(value) by {
      EmitEmpty(groups);
    }
    pairs
  }

  function ListStacksEndpoint(fields: Option<string>): (endpoint: string)
    ensures SplitEndpoint(endpoint) == ("/stacks", Serialize(TextQuery("fields", fields)))
    ensures '?' in endpoint <==> TextQuery("fields", fields) != []
  {
    var path, pairs := "/stacks", TextQuery("fields", fields);
    CollectionPathsPlain();
    WithQuerySplits(path, pairs);
    WithQuery(path, pairs)
  }

  // --------------------------------------------------------------- projects

  function ListProjectsQuery(params: ProjectListParams): (pairs: seq<Pair>)
    ensures ValuesOf(pairs, "page") == NumberValue(params.page)
    ensures ValuesOf(pairs, "pageSize") == NumberValue(params.pageSize)
    ensures ValuesOf(pairs, "rfxTypes") == if params.rfxTypes.Some? then params.rfxTypes.value else []
    ensures ValuesOf(pairs, "owners") == if params.owners.Some? then DecimalTexts(params.owners.value) else []
    ensures InOrder(pairs, ["page", "pageSize", "rfxTypes", "owners"])
    ensures pairs == [] <==>
              && !NumberGiven(params.page) && !NumberGiven(params.pageSize)
              && (params.rfxTypes.None? || params.rfxTypes.value == [])
              && (params.owners.None? || params.owners.value == [])
  {
    var owners := if params.owners.Some? then Some(DecimalTexts(params.owners.value)) else None;
    var page, pageSize := NumberValue(params.page), NumberValue(params.pageSize);
    var rfxTypes, ownerTexts := ListValue(params.rfxTypes), ListValue(owners);
    ProjectKeysDistinct();
    EmitFour("page", "pageSize", "rfxTypes", "owners", page, pageSize, rfxTypes, ownerTexts);
    Emit([("page", page), ("pageSize", pageSize), ("rfxTypes", rfxTypes), ("owners", ownerTexts)])
  }

  function ListProjectsEndpoint(params: ProjectListParams): (endpoint: string)
    ensures SplitEndpoint(endpoint) == ("/projects", Serialize(ListProjectsQuery(params)))
    ensures '?' in endpoint <==> ListProjectsQuery(params) != []
  {
    var path, pairs := "/projects", ListProjectsQuery(params);
    CollectionPathsPlain();
    WithQuerySplits(path, pairs);
    WithQuery(path, pairs)
  }

  function GetProjectEndpoint(projectId: int, fields: Option<string>): (endpoint: string)
    ensures SplitEndpoint(endpoint) == (ResourcePath("/projects", projectId), Serialize(TextQuery("fields", fields)))
    ensures '?' in endpoint <==> TextQuery("fields", fields) != []
  {
    var path, pairs := ResourcePath("/projects", projectId), TextQuery("fields", fields);
    WithQuerySplits(path, pairs);
    WithQuery(path, pairs)
  }

  function ProjectSummaryListQuery(lastUpdatedDateGt: string): (pairs: seq<Pair>)
    ensures ValuesOf(pairs, "lastUpdatedDateGt") == [lastUpdatedDateGt]
    ensures InOrder(pairs, ["lastUpdatedDateGt"])
    ensures pairs != []
  {
    var groups := [("lastUpdatedDateGt", [lastUpdatedDateGt])];
    var pairs := Emit(groups);
    assert GroupKeys(groups) == ["lastUpdatedDateGt"];
    assert Distinct(GroupKeys(groups));
    assert ValuesOf(pairs, "lastUpdatedDateGt") == [lastUpdatedDateGt] by {
      ReadsGroup(groups, 0);
    }
    assert InOrder(pairs, ["lastUpdatedDateGt"]) by {
      EmitInOrder(groups);
    }
    assert pairs != [] by {
      EmitEmpty(groups);
    }
    pairs
  }

  function ProjectSummaryListEndpoint(lastUpdatedDateGt: string): (endpoint: string)
    ensures SplitEndpoint(endpoint) == ("/projects/summary", Serialize(ProjectSummaryListQuery(lastUpdatedDateGt)))
    ensures endpoint == WithQuery("/projects/summary", ProjectSummaryListQuery(lastUpdatedDateGt))
    ensures '?' in endpoint
  {
    var pairs := ProjectSummaryListQuery(lastUpdatedDateGt);
    AlwaysWithQuery("/projects/summary", pairs);
    "/projects/summary" + "?" + Serialize(pairs)
  }

  function ListCustomProjectFieldsEndpoint(source: Option<string>): (endpoint: string)
    ensures SplitEndpoint(endpoint) == ("/customProjectFields", Serialize(TextQuery("source", source)))
    ensures '?' in endpoint <==> TextQuery("source", source) != []
  {
    var path, pairs := "/customProjectFields", TextQuery("source", source);
    CollectionPathsPlain();
    WithQuerySplits(path, pairs);
    WithQuery(path, pairs)
  }

  // -------------------------------------------------------- project entries

  function ListProjectEntriesQuery(params: ProjectEntryListParams): (pairs: seq<Pair>)
    ensures pairs != [] && pairs[0] == ("projectId", IntToString(params.projectId))
    ensures ValuesOf(pairs, "projectId") == [IntToString(params.projectId)]
    ensures ValuesOf(pairs, "sectionId") == NumberValue(params.sectionId)
    ensures ValuesOf(pairs, "subSectionId") == NumberValue(params.subSectionId)
    ensures ValuesOf(pairs, "inline[]") == if params.inline.Some? then params.inline.value else []
    ensures ValuesOf(pairs, "page") == NumberValue(params.page)
    ensures ValuesOf(pairs, "pageSize") == NumberValue(params.pageSize)
    ensures InOrder(pairs, ["projectId", "sectionId", "subSectionId", "inline[]", "page", "pageSize"])
  {
    var projectId := [IntToString(params.projectId)];
    var sectionId, subSectionId := NumberValue(params.sectionId), NumberValue(params.subSectionId);
    var inline := ListValue(params.inline);
    var page, pageSize := NumberValue(params.page), NumberValue(params.pageSize);
    EntryKeysDistinct();
    EmitSix("projectId", "sectionId", "subSectionId", "inline[]", "page", "pageSize",
            projectId, sectionId, subSectionId, inline, page, pageSize);
    Emit([("projectId", projectId), ("sectionId", sectionId), ("subSectionId", subSectionId),
          ("inline[]", inline), ("page", page), ("pageSize", pageSize)])
  }

  function ListProjectEntriesEndpoint(params: ProjectEntryListParams): (endpoint: string)
    ensures SplitEndpoint(endpoint) == ("/projectEntries", Serialize(ListProjectEntriesQuery(params)))
    ensures endpoint == WithQuery("/projectEntries", ListProjectEntriesQuery(params))
    ensures '?' in endpoint
  {
    var pairs := ListProjectEntriesQuery(params);
    AlwaysWithQuery("/projectEntries", pairs);
    "/projectEntries" + "?" + Serialize(pairs)
  }

  function GetProjectEntryEndpoint(projectEntryId: int, inline: Option<seq<string>>): (endpoint: string)
    ensures SplitEndpoint(endpoint) == (ResourcePath("/projectEntries", projectEntryId), Serialize(InlineQuery(inline)))
    ensures '?' in endpoint <==> InlineQuery(inline) != []
  {
    var path, pairs := ResourcePath("/projectEntries", projectEntryId), InlineQuery(inline);
    WithQuerySplits(path, pairs);
    WithQuery(path, pairs)
  }

  // ------------------------------------------------- sections and subsections

  function ListProjectSectionsQuery(params: SectionListParams): (pairs: seq<Pair>)
    ensures pairs != [] && pairs[0] == ("projectId", IntToString(params.projectId))
    ensures ValuesOf(pairs, "projectId") == [IntToString(params.projectId)]
    ensures ValuesOf(pairs, "page") == NumberValue(params.page)
    ensures ValuesOf(pairs, "pageSize") == NumberValue(params.pageSize)
    ensures InOrder(pairs, ["projectId", "page", "pageSize"])
  {
    var groups := [
      ("projectId", [IntToString(params.projectId)]),
      ("page", NumberValue(params.page)),
      ("pageSize", NumberValue(params.pageSize))];
    var pairs := Emit(groups);
    assert GroupKeys(groups) == ["projectId", "page", "pageSize"];
    assert Distinct(GroupKeys(groups)) by { SectionKeysDistinct(); }
    assert pairs != [] && pairs[0] == ("projectId", IntToString(params.projectId)) by {
      EmitHead(groups);
    }
    assert ValuesOf(pairs, "projectId") == [IntToString(params.projectId)] by {
      ReadsGroup(groups, 0);
    }
    assert ValuesOf(pairs, "page") == NumberValue(params.page) by {
      ReadsGroup(groups, 1);
    }
    assert ValuesOf(pairs, "pageSize") == NumberValue(params.pageSize) by {
      ReadsGroup(groups, 2);
    }
    assert InOrder(pairs, ["projectId", "page", "pageSize"]) by {
      EmitInOrder(groups);
    }
    pairs
  }

  function ListProjectSectionsEndpoint(params: SectionListParams): (endpoint: string)
    ensures SplitEndpoint(endpoint) == ("/sections", Serialize(ListProjectSectionsQuery(params)))
    ensures endpoint == WithQuery("/sections", ListProjectSectionsQuery(params))
    ensures '?' in endpoint
  {
    var pairs := ListProjectSectionsQuery(params);
    AlwaysWithQuery("/sections", pairs);
    "/sections" + "?" + Serialize(pairs)
  }

  function ListProjectSubSectionsQuery(params: SubSectionListParams): (pairs: seq<Pair>)
    ensures pairs != [] && pairs[0] == ("projectId", IntToString(params.projectId))
    ensures ValuesOf(pairs, "projectId") == [IntToString(params.projectId)]
    ensures ValuesOf(pairs, "sectionId") == NumberValue(params.sectionId)
    ensures ValuesOf(pairs, "page") == NumberValue(params.page)
    ensures ValuesOf(pairs, "pageSize") == NumberValue(params.pageSize)
    ensures InOrder(pairs, ["projectId", "sectionId", "page", "pageSize"])
  {
    var projectId, sectionId := [IntToString(params.projectId)], NumberValue(params.sectionId);
    var page, pageSize := NumberValue(params.page), NumberValue(params.pageSize);
    var groups := [("projectId", projectId), ("sectionId", sectionId), ("page", page), ("pageSize", pageSize)];
    SubSectionKeysDistinct();
    EmitFour("projectId", "sectionId", "page", "pageSize", projectId, sectionId, page, pageSize);
    EmitHead(groups);
    Emit(groups)
  }

  function ListProjectSubSectionsEndpoint(params: SubSectionListParams): (endpoint: string)
    ensures SplitEndpoint(endpoint) == ("/subSections", Serialize(ListProjectSubSectionsQuery(params)))
    ensures endpoint == WithQuery("/subSections", ListProjectSubSectionsQuery(params))
    ensures '?' in endpoint
  {
    var pairs := ListProjectSubSectionsQuery(params);
    AlwaysWithQuery("/subSections", pairs);
    "/subSections" + "?" + Serialize(pairs)
  }
}

=== FILE: http_request.dfy ===
/** The one place the API client talks to the network: `request` assembles
    the URL, headers, method and body of a call, and classifies the response
    into a rejection carrying the error text, the empty object for
    `204 No Content`, or the parsed JSON body. The network itself, and
    `JSON.stringify` / `response.json()`, are parameters. */
module HttpRequest {

  import opened Wrappers
  import opened Decimal
  import opened JsValue

  /** The client's configuration. The token is optional: nothing guarantees
      it has been set when a request is made. */
  datatype Config = Config(apiBaseUrl: string, clientId: string, clientSecret: string, accessToken: Option<string>)

  /** The optional second argument of `request`; `verb` is its `method`. */
  datatype RequestOptions = RequestOptions(
    verb: Option<string>,
    body: Option<Json>,
    headers: Option<map<string, string>>)

  const NoOptions := RequestOptions(None, None, None)

  /** What is handed to `fetch`. A body of `undefined` is `None`. */
  datatype Request = Request(url: string, verb: string, headers: map<string, string>, body: Option<string>)

  /** The parts of a `fetch` response that `request` looks at. */
  datatype Response = Response(status: int, statusText: string, bodyText: string)

  /** How a call settles: rejected with an `Error` message, resolved with a
      JSON value, or rejected because the body is not JSON. */
  datatype Outcome = Rejected(message: string) | Resolved(value: Json) | Unparseable

  const Authorization := "Authorization"
  const ContentType := "Content-Type"
  const JsonMediaType := "application/json"
  const FailurePrefix := "Loopio API request failed: "

  /** `Bearer ${accessToken}`. */
  function BearerValue(token: Option<string>): (v: string)
    ensures |v| >= 7 && v[..7] == "Bearer "
    ensures token.Some? ==> v[7..] == token.value
    ensures token.None? ==> v[7..] == "undefined"
  {
    "Bearer " + TemplateText(token)
  }

  /** The two default headers, then the caller's headers spread over them:
      a caller's header replaces a default of the same name. */
  function BuildHeaders(token: Option<string>, overrides: Option<map<string, string>>): (headers: map<string, string>)
    ensures headers.Keys == {Authorization, ContentType} + (if overrides.Some? then overrides.value.Keys else {})
    ensures overrides.Some? ==> forall k :: k in overrides.value ==> headers[k] == overrides.value[k]
    ensures (overrides.None? || Authorization !in overrides.value) ==> headers[Authorization] == BearerValue(token)
    ensures (overrides.None? || ContentType !in overrides.value) ==> headers[ContentType] == JsonMediaType
  {
    var defaults := map[Authorization := BearerValue(token), ContentType := JsonMediaType];
    match overrides
    case None => defaults
    case Some(extra) => defaults + extra
  }

  /** The request `request(endpoint, options)` hands to `fetch`. */
  function BuildRequest(config: Config, endpoint: string, options: RequestOptions, stringify: Json -> string): (r: Request)
    ensures |r.url| == |config.apiBaseUrl| + |endpoint|
    ensures r.url[..|config.apiBaseUrl|] == config.apiBaseUrl && r.url[|config.apiBaseUrl|..] == endpoint
    ensures TextGiven(options.verb) ==> r.verb == options.verb.value
    ensures !TextGiven(options.verb) ==> r.verb == "GET"
    ensures r.body.Some? <==> Present(options.body)
    ensures r.body.Some? ==> r.body.value == stringify(options.body.value)
    ensures r.headers == BuildHeaders(config.accessToken, options.headers)
  {
    Request(
      config.apiBaseUrl + endpoint,
      OrElse(options.verb, "GET"),
      BuildHeaders(config.accessToken, options.headers),
      if Present(options.body) then Some(stringify(options.body.value)) else None)
  }

  /** `response.ok`: a status in the 2xx range. */
  predicate Ok(status: int) {
    200 <= status <= 299
  }

  /** The text of the `Error` thrown for an unsuccessful response. */
  function FailureMessage(response: Response): string {
    FailurePrefix + IntToString(response.status) + " " + response.statusText + " - " + response.bodyText
  }

  /** How `request` settles on a response. `parse` stands for
      `response.json()`, which yields `None` on text that is not JSON. */
  function Settle(response: Response, parse: string -> Option<Json>): (o: Outcome)
    ensures o.Rejected? <==> !Ok(response.status)
    ensures o.Rejected? ==> StatusOf(o.message) == Some(response.status)
    ensures o.Rejected? ==> EndsWith(o.message, " - " + response.bodyText)
    ensures o.Rejected? ==> StatusTextIn(o.message, response)
    ensures response.status == 204 ==> o == Resolved(JObject(map[]))
    ensures Ok(response.status) && response.status != 204 ==>
              (o.Resolved? <==> parse(response.bodyText).Some?)
    ensures o.Resolved? && response.status != 204 ==> o.value == parse(response.bodyText).value
  {
    if !Ok(response.status) then
      var message := FailureMessage(response);
      FailureMessageStatus(response);
      FailureMessageBody(response);
      FailureMessageStatusText(response);
      Rejected(message)
    else if response.status == 204 then Resolved(JObject(map[]))
    else
      match parse(response.bodyText)
      case Some(v) => Resolved(v)
      case None => Unparseable
  }

  /** `request(endpoint, options)`: `send` stands for `fetch`. */
  function Call(
    config: Config, endpoint: string, options: RequestOptions,
    stringify: Json -> string, send: Request -> Response, parse: string -> Option<Json>): (o: Outcome)
  {
    Settle(send(BuildRequest(config, endpoint, options, stringify)), parse)
  }

  // ------------------------------------------------ reading an error message

  predicate EndsWith(s: string, suffix: string) {
    |suffix| <= |s| && s[|s| - |suffix|..] == suffix
  }

  /** The text before the first `c` (all of `s` when there is none). */
  function TakeUntil(s: string, c: char): (prefix: string)
    ensures |prefix| <= |s| && prefix == s[..|prefix|]
    decreases |s|
  {
    if s == [] || s[0] == c then [] else [s[0]] + TakeUntil(s[1..], c)
  }

  /** The status code an error message reports, read back as a caller
      would: the number between the fixed prefix and the next space. */
  function StatusOf(message: string): Option<int> {
    var n := |FailurePrefix|;
    if |message| < n || message[..n] != FailurePrefix then None
    else ParseInt(TakeUntil(message[n..], ' '))
  }

  lemma {:induction false} TakeUntilPrefix(a: string, c: char, b: string)
    requires c !in a
    ensures TakeUntil(a + [c] + b, c) == a
    decreases |a|
  {
    if a == [] {
      assert (a + [c] + b)[0] == c;
    } else {
      assert (a + [c] + b)[0] == a[0];
      assert (a + [c] + b)[1..] == a[1..] + [c] + b;
      TakeUntilPrefix(a[1..], c, b);
      assert [a[0]] + a[1..] == a;
    }
  }

  lemma DecimalHasNoSpace(i: int)
    ensures ' ' !in IntToString(i)
  {
    var s := IntToString(i);
    forall k | 0 <= k < |s|
      ensures s[k] != ' '
    {
      if k == 0 {
        assert s[0] == '-' || IsDigit(s[0]);
      } else {
        assert IsDigit(s[k]);
      }
    }
  }

  /** The status code is recovered from the message. */
  lemma FailureMessageStatus(response: Response)
    ensures StatusOf(FailureMessage(response)) == Some(response.status)
  {
    var digits := IntToString(response.status);
    var rest := response.statusText + " - " + response.bodyText;
    var message := FailureMessage(response);
    var n := |FailurePrefix|;
    assert message == FailurePrefix + (digits + [' '] + rest);
    assert message[..n] == FailurePrefix;
    assert message[n..] == digits + [' '] + rest;
    DecimalHasNoSpace(response.status);
    TakeUntilPrefix(digits, ' ', rest);
    ParseIntToString(response.status);
  }

  /** The status text sits in `message` between the status code (and the
      space after it) and the closing ` - <body>`. */
  predicate StatusTextIn(message: string, response: Response) {
    var start := |FailurePrefix| + |IntToString(response.status)| + 1;
    var end := |message| - |" - " + response.bodyText|;
    start <= end <= |message| && message[start..end] == response.statusText
  }

  /** The status text is recovered from the message. */
  lemma FailureMessageStatusText(response: Response)
    ensures StatusTextIn(FailureMessage(response), response)
  {
    var head := FailurePrefix + IntToString(response.status) + " ";
    var tail := " - " + response.bodyText;
    assert FailureMessage(response) == head + response.statusText + tail;
    assert (head + response.statusText + tail)[|head|..|head| + |response.statusText|] == response.statusText;
  }

  /** The message ends with the response body. */
  lemma FailureMessageBody(response: Response)
    ensures EndsWith(FailureMessage(response), " - " + response.bodyText)
  {
    var tail := " - " + response.bodyText;
    var head := FailurePrefix + IntToString(response.status) + " " + response.statusText;
    assert FailureMessage(response) == head + tail;
    assert (head + tail)[|head + tail| - |tail|..] == tail;
  }

  // ---------------------------------------------------------------- lemmas

  /** A `204` response settles to the empty object whatever its body: the
      body is never read. */
  lemma NoContentIgnoresBody(a: Response, b: Response, parse: string -> Option<Json>)
    requires a.status == 204 && b.status == 204
    ensures Settle(a, parse) == Settle(b, parse) == Resolved(JObject(map[]))
  {
  }

  /** An unsuccessful response settles without the parser: whatever
      `response.json()` would make of the body, the rejection is the same. */
  lemma FailureIgnoresParser(response: Response, p: string -> Option<Json>, q: string -> Option<Json>)
    requires !Ok(response.status)
    ensures Settle(response, p) == Settle(response, q) == Rejected(FailureMessage(response))
  {
  }

  /** Without caller headers, exactly the two defaults are sent. */
  lemma DefaultHeaders(token: Option<string>)
    ensures BuildHeaders(token, None) == map[Authorization := BearerValue(token), ContentType := JsonMediaType]
  {
  }

  /** A call made with no options is a `GET` with no body, carrying the
      bearer token. */
  lemma PlainGet(config: Config, endpoint: string, stringify: Json -> string)
    ensures var r := BuildRequest(config, endpoint, NoOptions, stringify);
      && r.verb == "GET" && r.body.None?
      && r.headers == map[Authorization := BearerValue(config.accessToken), ContentType := JsonMediaType]
  {
  }
}

=== FILE: js_value.dfy ===
/** The JavaScript values the handlers and the client pass around: JSON
    documents, `string | null`, and the truthiness test that every `if (x)`,
    `x || d` and `x && {...}` in the program applies. */
module JsValue {

  import opened Wrappers

  /** A JSON document. An object is its map from keys to values; numbers
      are integers (see README, "Left out"). */
  datatype Json =
    | JNull
    | JBool(b: bool)
    | JNumber(n: int)
    | JString(s: string)
    | JArray(items: seq<Json>)
    | JObject(fields: map<string, Json>)

  /** `T | null`: a field that is present but may hold JSON `null`. */
  datatype Nullable<+T> = Null | NonNull(value: T)

  /** JavaScript truthiness of a JSON value: `null`, `false`, `0` and `""`
      are falsy, every array and object is truthy. */
  predicate Truthy(v: Json) {
    match v
    case JNull => false
    case JBool(b) => b
    case JNumber(n) => n != 0
    case JString(s) => s != ""
    case JArray(_) => true
    case JObject(_) => true
  }

  /** Truthiness of an optional value; `undefined` is falsy. */
  predicate Present(v: Option<Json>) {
    v.Some? && Truthy(v.value)
  }

  /** Truthiness of an optional number (`0` and `undefined` are falsy). */
  predicate NumberGiven(n: Option<int>) {
    n.Some? && n.value != 0
  }

  /** Truthiness of an optional string (`""` and `undefined` are falsy). */
  predicate TextGiven(s: Option<string>) {
    s.Some? && s.value != ""
  }

  /** `s || fallback` for an optional string. */
  function OrElse(s: Option<string>, fallback: string): (r: string)
    ensures TextGiven(s) ==> r == s.value
    ensures !TextGiven(s) ==> r == fallback
  {
    if TextGiven(s) then s.value else fallback
  }

  /** Text a template literal `${x}` produces for an optional string. */
  function TemplateText(s: Option<string>): string {
    match s
    case Some(t) => t
    case None => "undefined"
  }

  /** `string | null` as a JSON value. */
  function NullableText(t: Nullable<string>): (v: Json)
    ensures v.JNull? <==> t.Null?
    ensures t.NonNull? ==> v == JString(t.value)
  {
    match t
    case Null => JNull
    case NonNull(s) => JString(s)
  }

  /** Property lookup: `undefined` is `None`. */
  function Get(fields: map<string, Json>, key: string): Option<Json> {
    if key in fields then Some(fields[key]) else None
  }
}

=== FILE: object_literal.dfy ===
/** JavaScript objects as they reach the wire. An object is written
    property by property: an `undefined` property is dropped by
    `JSON.stringify`, a conditional spread `...(x && {k: v})` adds nothing
    when `x` is falsy, and `if (x !== undefined) updates.k = x` adds nothing
    for `undefined`; all three leave the key absent. */
module ObjectLiteral {

  import opened Wrappers
  import opened JsValue

  type Fields = map<string, Json>

  /** Writes property `key`; `None` stands for `undefined` and adds
      nothing. The key then reads back the value, and every other key reads
      back what it did before. */
  function With(fields: Fields, key: string, value: Option<Json>): (r: Fields)
    ensures r.Keys == fields.Keys + (if value.Some? then {key} else {})
    ensures value.Some? ==> Get(r, key) == value
    ensures value.None? ==> Get(r, key) == Get(fields, key)
    ensures forall k :: k != key ==> Get(r, k) == Get(fields, k)
  {
    if value.Some? then fields[key := value.value] else fields
  }
}

=== FILE: query_params.dfy ===
/** Query strings as the client builds them: an ordered list of
    `URLSearchParams` tuples, produced group by group (one key, the values
    appended under it), serialized, and attached to a path after `?` only
    when there is something to attach. */
module QueryParams {

  import opened Wrappers
  import opened Decimal
  import opened JsValue
  import opened UrlEncoding

  /** One key and the values appended under it, in order. */
  type Group = (string, seq<string>)

  /** `values.forEach(v => params.append(key, v))`: one tuple per value. */
  function Repeated(key: string, values: seq<string>): (pairs: seq<Pair>)
    ensures |pairs| == |values|
    ensures forall i :: 0 <= i < |pairs| ==> pairs[i] == (key, values[i])
    decreases |values|
  {
    if values == [] then [] else [(key, values[0])] + Repeated(key, values[1..])
  }

  /** The tuples of the groups, group after group. */
  function Emit(groups: seq<Group>): seq<Pair>
    decreases |groups|
  {
    if groups == [] then [] else Repeated(groups[0].0, groups[0].1) + Emit(groups[1..])
  }

  function GroupKeys(groups: seq<Group>): (keys: seq<string>)
    ensures |keys| == |groups|
    ensures forall i :: 0 <= i < |groups| ==> keys[i] == groups[i].0
    decreases |groups|
  {
    if groups == [] then [] else [groups[0].0] + GroupKeys(groups[1..])
  }

  /** No key occurs twice. */
  predicate Distinct(keys: seq<string>)
    decreases |keys|
  {
    keys == [] || (keys[0] !in keys[1..] && Distinct(keys[1..]))
  }

  /** `URLSearchParams.prototype.getAll(key)`: every value under `key`, in
      order. This is how the receiving side reads a query. */
  function ValuesOf(pairs: seq<Pair>, key: string): (values: seq<string>)
    ensures |values| <= |pairs|
    decreases |pairs|
  {
    if pairs == [] then []
    else (if pairs[0].0 == key then [pairs[0].1] else []) + ValuesOf(pairs[1..], key)
  }

  /** Position of `key` in `keys` (|keys| when absent). */
  function Rank(keys: seq<string>, key: string): (r: nat)
    ensures r <= |keys|
    ensures r < |keys| <==> key in keys
    ensures r < |keys| ==> keys[r] == key
    decreases |keys|
  {
    if keys == [] then 0 else if keys[0] == key then 0 else 1 + Rank(keys[1..], key)
  }

  /** Every tuple's key is one of `keys`, and tuples appear in the order of
      their keys in `keys`. */
  predicate InOrder(pairs: seq<Pair>, keys: seq<string>) {
    && (forall i :: 0 <= i < |pairs| ==> pairs[i].0 in keys)
    && (forall i, j :: 0 <= i < j < |pairs| ==> Rank(keys, pairs[i].0) <= Rank(keys, pairs[j].0))
  }

  /** A numeric argument contributes its decimal text when it is truthy. */
  function NumberValue(n: Option<int>): (values: seq<string>)
    ensures |values| == (if NumberGiven(n) then 1 else 0)
    ensures NumberGiven(n) ==> values[0] == IntToString(n.value)
  {
    if NumberGiven(n) then [IntToString(n.value)] else []
  }

  /** A string argument contributes itself when it is non-empty. */
  function TextValue(s: Option<string>): (values: seq<string>)
    ensures |values| == (if TextGiven(s) then 1 else 0)
    ensures TextGiven(s) ==> values[0] == s.value
  {
    if TextGiven(s) then [s.value] else []
  }

  /** An array argument contributes each element when it is non-empty; an
      empty or absent array contributes nothing. */
  function ListValue(xs: Option<seq<string>>): (values: seq<string>)
    ensures values == if xs.Some? then xs.value else []
  {
    if xs.Some? && |xs.value| > 0 then xs.value else []
  }

  /** `path` followed by `?query` when the serialized query is non-empty. */
  function WithQuery(path: string, pairs: seq<Pair>): (endpoint: string)
    ensures |endpoint| >= |path| && endpoint[..|path|] == path
    ensures pairs == [] ==> endpoint == path
    ensures pairs != [] ==> |endpoint| > |path| && endpoint[|path|] == '?'
  {
    var query := Serialize(pairs);
    path + (if query != "" then "?" + query else "")
  }

  /** Splits an endpoint at its first `?` into path and query. */
  function SplitEndpoint(endpoint: string): (string, string)
    decreases |endpoint|
  {
    if endpoint == [] then ("", "")
    else if endpoint[0] == '?' then ("", endpoint[1..])
    else
      var rest := SplitEndpoint(endpoint[1..]);
      ([endpoint[0]] + rest.0, rest.1)
  }

  lemma {:induction false} ValuesOfAppend(a: seq<Pair>, b: seq<Pair>, key: string)
    ensures ValuesOf(a + b, key) == ValuesOf(a, key) + ValuesOf(b, key)
    decreases |a|
  {
    if a != [] {
      assert (a + b)[0] == a[0];
      assert (a + b)[1..] == a[1..] + b;
      ValuesOfAppend(a[1..], b, key);
    } else {
      assert a + b == b;
    }
  }

  lemma {:induction false} ValuesOfRepeated(key: string, values: seq<string>, k: string)
    ensures ValuesOf(Repeated(key, values), k) == if k == key then values else []
    decreases |values|
  {
    if values != [] {
      var rest := Repeated(key, values[1..]);
      var pairs := [(key, values[0])] + rest;
      assert Repeated(key, values) == pairs;
      assert pairs[0] == (key, values[0]) && pairs[1..] == rest;
      ValuesOfRepeated(key, values[1..], k);
      if k == key {
        assert [values[0]] + values[1..] == values;
      }
    }
  }

  /** The tuples of groups none of which has `k` as key read back nothing
      under `k`. */
  lemma {:induction false} ValuesOfEmitAbsent(groups: seq<Group>, k: string)
    requires k !in GroupKeys(groups)
    ensures ValuesOf(Emit(groups), k) == []
    decreases |groups|
  {
    if groups != [] {
      var keys, tail := GroupKeys(groups), groups[1..];
      assert GroupKeys(tail) == keys[1..];
      assert k != groups[0].0 && k !in keys[1..];
      ValuesOfEmitAbsent(tail, k);
      ValuesOfAppend(Repeated(groups[0].0, groups[0].1), Emit(tail), k);
      ValuesOfRepeated(groups[0].0, groups[0].1, k);
    }
  }

  /** Prepending tuples under the first key keeps the order. */
  lemma InOrderPrepend(head: seq<Pair>, tail: seq<Pair>, keys: seq<string>)
    requires keys != [] && keys[0] !in keys[1..]
    requires forall i :: 0 <= i < |head| ==> head[i].0 == keys[0]
    requires InOrder(tail, keys[1..])
    ensures InOrder(head + tail, keys)
  {
    var pairs := head + tail;
    forall i | 0 <= i < |pairs|
      ensures pairs[i].0 in keys
      ensures i >= |head| ==> Rank(keys, pairs[i].0) == 1 + Rank(keys[1..], tail[i - |head|].0)
      ensures i < |head| ==> Rank(keys, pairs[i].0) == 0
    {
      if i >= |head| {
        assert pairs[i] == tail[i - |head|];
        assert pairs[i].0 in keys[1..];
      }
    }
  }

  lemma {:induction false} EmitInOrder(groups: seq<Group>)
    requires Distinct(GroupKeys(groups))
    ensures InOrder(Emit(groups), GroupKeys(groups))
    decreases |groups|
  {
    if groups != [] {
      var keys := GroupKeys(groups);
      assert GroupKeys(groups[1..]) == keys[1..];
      EmitInOrder(groups[1..]);
      InOrderPrepend(Repeated(groups[0].0, groups[0].1), Emit(groups[1..]), keys);
    }
  }

  lemma {:induction false} EmitEmpty(groups: seq<Group>)
    ensures Emit(groups) == [] <==> forall i :: 0 <= i < |groups| ==> groups[i].1 == []
    decreases |groups|
  {
    if groups != [] {
      EmitEmpty(groups[1..]);
      assert forall i :: 1 <= i < |groups| ==> groups[i] == groups[1..][i - 1];
    }
  }

  /** The first tuple comes from the first group. */
  lemma EmitHead(groups: seq<Group>)
    requires groups != [] && groups[0].1 != []
    ensures Emit(groups) != [] && Emit(groups)[0] == (groups[0].0, groups[0].1[0])
  {
  }

  /** Reading back the tuples of distinct-keyed groups under the key of
      group `i` yields exactly that group's values. */
  lemma {:induction false} ReadsGroup(groups: seq<Group>, i: nat)
    requires Distinct(GroupKeys(groups)) && i < |groups|
    ensures ValuesOf(Emit(groups), groups[i].0) == groups[i].1
    decreases i
  {
    var keys, tail, k := GroupKeys(groups), groups[1..], groups[i].0;
    assert GroupKeys(tail) == keys[1..];
    ValuesOfAppend(Repeated(groups[0].0, groups[0].1), Emit(tail), k);
    ValuesOfRepeated(groups[0].0, groups[0].1, k);
    if i == 0 {
      ValuesOfEmitAbsent(tail, k);
      assert groups[0].1 + [] == groups[0].1;
    } else {
      assert k == keys[i] && keys[i] != keys[0];
      assert tail[i - 1] == groups[i];
      ReadsGroup(tail, i - 1);
    }
  }

  /** Four distinct-keyed groups read back group by group, in key order,
      and emit nothing exactly when every group is empty. */
  lemma EmitFour(k0: string, k1: string, k2: string, k3: string,
                 v0: seq<string>, v1: seq<string>, v2: seq<string>, v3: seq<string>)
    requires Distinct([k0, k1, k2, k3])
    ensures var pairs := Emit([(k0, v0), (k1, v1), (k2, v2), (k3, v3)]);
      && ValuesOf(pairs, k0) == v0 && ValuesOf(pairs, k1) == v1
      && ValuesOf(pairs, k2) == v2 && ValuesOf(pairs, k3) == v3
      && InOrder(pairs, [k0, k1, k2, k3])
      && (pairs == [] <==> v0 == [] && v1 == [] && v2 == [] && v3 == [])
  {
    var groups := [(k0, v0), (k1, v1), (k2, v2), (k3, v3)];
    assert GroupKeys(groups) == [k0, k1, k2, k3];
    assert Distinct(GroupKeys(groups));
    ReadsGroup(groups, 0);
    ReadsGroup(groups, 1);
    ReadsGroup(groups, 2);
    ReadsGroup(groups, 3);
    EmitInOrder(groups);
    EmitEmpty(groups);
  }

  /** Six distinct-keyed groups read back group by group, in key order, and
      a non-empty first group supplies the first tuple. */
  lemma EmitSix(k0: string, k1: string, k2: string, k3: string, k4: string, k5: string,
                v0: seq<string>, v1: seq<string>, v2: seq<string>, v3: seq<string>, v4: seq<string>, v5: seq<string>)
    requires Distinct([k0, k1, k2, k3, k4, k5]) && v0 != []
    ensures var pairs := Emit([(k0, v0), (k1, v1), (k2, v2), (k3, v3), (k4, v4), (k5, v5)]);
      && pairs != [] && pairs[0] == (k0, v0[0])
      && ValuesOf(pairs, k0) == v0 && ValuesOf(pairs, k1) == v1
      && ValuesOf(pairs, k2) == v2 && ValuesOf(pairs, k3) == v3
      && ValuesOf(pairs, k4) == v4 && ValuesOf(pairs, k5) == v5
      && InOrder(pairs, [k0, k1, k2, k3, k4, k5])
  {
    var groups := [(k0, v0), (k1, v1), (k2, v2), (k3, v3), (k4, v4), (k5, v5)];
    assert GroupKeys(groups) == [k0, k1, k2, k3, k4, k5];
    assert Distinct(GroupKeys(groups));
    EmitHead(groups);
    ReadsGroup(groups, 0);
    ReadsGroup(groups, 1);
    ReadsGroup(groups, 2);
    ReadsGroup(groups, 3);
    ReadsGroup(groups, 4);
    ReadsGroup(groups, 5);
    EmitInOrder(groups);
  }

  /** A '?'-free path and the query reappear when the endpoint is split at
      its first '?'. */
  lemma {:induction false} SplitAfterPath(path: string, rest: string)
    requires '?' !in path
    ensures SplitEndpoint(path + rest) == (path + SplitEndpoint(rest).0, SplitEndpoint(rest).1)
    decreases |path|
  {
    if path != [] {
      assert (path + rest)[0] == path[0] && path[0] != '?';
      assert (path + rest)[1..] == path[1..] + rest;
      SplitAfterPath(path[1..], rest);
      assert [path[0]] + (path[1..] + SplitEndpoint(rest).0) == path + SplitEndpoint(rest).0;
    } else {
      assert path + rest == rest;
      assert path + SplitEndpoint(rest).0 == SplitEndpoint(rest).0;
    }
  }

  lemma {:induction false} SplitNoQuery(s: string)
    requires '?' !in s
    ensures SplitEndpoint(s) == (s, "")
    decreases |s|
  {
    if s != [] {
      SplitNoQuery(s[1..]);
      assert [s[0]] + s[1..] == s;
    }
  }

  lemma SplitAtQuery(path: string, query: string)
    requires '?' !in path
    ensures SplitEndpoint(path + "?" + query) == (path, query)
  {
    assert path + "?" + query == path + ("?" + query);
    SplitAfterPath(path, "?" + query);
    assert ("?" + query)[1..] == query;
    assert path + "" == path;
  }

  /** The path and the serialized query are recovered from the endpoint, so
      the endpoint carries a '?' exactly when the tuple list is non-empty. */
  lemma WithQuerySplits(path: string, pairs: seq<Pair>)
    requires '?' !in path
    ensures SplitEndpoint(WithQuery(path, pairs)) == (path, Serialize(pairs))
    ensures '?' in WithQuery(path, pairs) <==> pairs != []
  {
    var query := Serialize(pairs);
    SerializeAlphabet(pairs);
    if pairs == [] {
      SplitNoQuery(path);
    } else {
      assert WithQuery(path, pairs) == path + "?" + query;
      SplitAtQuery(path, query);
    }
  }

  /** Attaching `?` unconditionally, as the list methods that always send a
      tuple do, gives the same endpoint as attaching it only for a non-empty
      query. */
  lemma AlwaysWithQuery(path: string, pairs: seq<Pair>)
    requires '?' !in path && pairs != []
    ensures path + "?" + Serialize(pairs) == WithQuery(path, pairs)
    ensures SplitEndpoint(path + "?" + Serialize(pairs)) == (path, Serialize(pairs))
    ensures '?' in path + "?" + Serialize(pairs)
  {
    var query := Serialize(pairs);
    assert query != "";
    assert path + "?" + query == path + ("?" + query);
    assert WithQuery(path, pairs) == path + ("?" + query);
    WithQuerySplits(path, pairs);
  }
}

=== FILE: startup.dfy ===
/** Start-up of the server: the configuration read from the environment
    with its defaults, and `main`, which refuses to start without both
    credentials and otherwise fetches a token, starts the refresh timer and
    connects the transport, in that order. The token fetch and the
    connection are outside code; whether they succeed, and the token the
    fetch yields, are parameters. */
module Startup {

  import opened Wrappers
  import opened JsValue
  import opened HttpRequest

  /** The three environment variables; `None` is an unset variable. */
  datatype Env = Env(baseUrl: Option<string>, clientId: Option<string>, clientSecret: Option<string>)

  const DefaultBaseUrl := "https://api.loopio.com/data/v2"

  /** What `main` does, as observed from outside. */
  datatype Event = FetchToken | StartRefresh | Connect | Exit(code: int)

  /** The events of a run and the configuration the client holds at its
      end. */
  datatype Run = Run(events: seq<Event>, config: Config)

  /** The configuration built at load time: each variable `|| default`, so
      an empty variable counts as unset. No token yet. */
  function LoadConfig(env: Env): (config: Config)
    ensures TextGiven(env.baseUrl) ==> config.apiBaseUrl == env.baseUrl.value
    ensures !TextGiven(env.baseUrl) ==> config.apiBaseUrl == DefaultBaseUrl
    ensures config.clientId == "" <==> !TextGiven(env.clientId)
    ensures TextGiven(env.clientId) ==> config.clientId == env.clientId.value
    ensures config.clientSecret == "" <==> !TextGiven(env.clientSecret)
    ensures TextGiven(env.clientSecret) ==> config.clientSecret == env.clientSecret.value
    ensures config.accessToken.None?
  {
    Config(OrElse(env.baseUrl, DefaultBaseUrl), OrElse(env.clientId, ""), OrElse(env.clientSecret, ""), None)
  }

  /** Both credentials are non-empty. */
  predicate HasCredentials(config: Config) {
    config.clientId != "" && config.clientSecret != ""
  }

  /** `main().catch(...)`. `token` is the token the fetch stores, `None`
      when the fetch rejects; `connected` says whether connecting the
      transport resolves. A rejection anywhere ends the run with exit code
      1. */
  function Main(config: Config, token: Option<string>, connected: bool): (run: Run)
    ensures !HasCredentials(config) ==> run.events == [Exit(1)]
    ensures HasCredentials(config) ==> |run.events| >= 2 && run.events[0] == FetchToken
    ensures Exit(1) in run.events <==> !(HasCredentials(config) && token.Some? && connected)
    ensures StartRefresh in run.events <==> HasCredentials(config) && token.Some?
    ensures Connect in run.events <==> HasCredentials(config) && token.Some? && connected
    ensures |run.events| == (if !HasCredentials(config) then 1 else if token.None? then 2 else 3)
    ensures run.config.apiBaseUrl == config.apiBaseUrl
  {
    if !HasCredentials(config) then Run([Exit(1)], config)
    else if token.None? then Run([FetchToken, Exit(1)], config)
    else
      var withToken := config.(accessToken := token);
      if !connected then Run([FetchToken, StartRefresh, Exit(1)], withToken)
      else Run([FetchToken, StartRefresh, Connect], withToken)
  }

  /** Position of the first `e` in `events` (|events| when absent). */
  function IndexOf(events: seq<Event>, e: Event): (i: nat)
    ensures i <= |events|
    ensures i < |events| <==> e in events
    ensures i < |events| ==> events[i] == e && e !in events[..i]
    decreases |events|
  {
    if events == [] then 0
    else if events[0] == e then 0
    else
      assert events[1..][..IndexOf(events[1..], e)] == events[..1 + IndexOf(events[1..], e)][1..];
      1 + IndexOf(events[1..], e)
  }

  /** The start-up discipline `main` keeps: nothing happens before the
      token fetch, the timer starts only after it, the transport connects
      only after the timer, and an exit ends the run. */
  predicate Disciplined(events: seq<Event>) {
    && (StartRefresh in events ==> FetchToken in events && IndexOf(events, FetchToken) < IndexOf(events, StartRefresh))
    && (Connect in events ==> StartRefresh in events && IndexOf(events, StartRefresh) < IndexOf(events, Connect))
    && (forall i :: 0 <= i < |events| - 1 ==> !events[i].Exit?)
  }

  /** Every run keeps the discipline, whatever the outside code does. */
  lemma MainDisciplined(config: Config, token: Option<string>, connected: bool)
    ensures Disciplined(Main(config, token, connected).events)
  {
    var events := Main(config, token, connected).events;
    if HasCredentials(config) && token.Some? {
      assert events[0] == FetchToken && events[1] == StartRefresh;
      assert IndexOf(events, FetchToken) == 0;
      assert IndexOf(events, StartRefresh) == 1;
      if connected {
        assert events[2] == Connect;
        assert IndexOf(events, Connect) == 2;
      }
    }
  }

  /** The gate: with an empty credential no token is requested, and the
      process exits with code 1. */
  lemma NoCredentialsNoFetch(env: Env, token: Option<string>, connected: bool)
    requires !TextGiven(env.clientId) || !TextGiven(env.clientSecret)
    ensures var run := Main(LoadConfig(env), token, connected);
      FetchToken !in run.events && run.events[|run.events| - 1] == Exit(1)
  {
  }

  /** At the end of a successful start the configuration holds the fetched
      token, so a request without header overrides sends `Bearer <token>`.
      That the fetch stores its token in the configuration is an assumption
      of `Main`: the token fetch itself is outside code. */
  lemma StartedRequestsCarryToken(env: Env, token: string)
    requires TextGiven(env.clientId) && TextGiven(env.clientSecret)
    ensures var run := Main(LoadConfig(env), Some(token), true);
      && run.events == [FetchToken, StartRefresh, Connect]
      && BuildHeaders(run.config.accessToken, None)[Authorization] == "Bearer " + token
  {
  }
}

=== FILE: tool_handlers.dfy ===
/** The reshaping the MCP tool handlers do between their arguments and the
    client call: the merge-variable flag of `getLibraryEntry`, the library
    entry body with its optional location parts, the project bodies with
    `description || null` and the optional owner, the project entry body
    with its optional answer, and the update objects that carry exactly
    the fields that were given. Bodies are the JSON objects as serialized
    (see `ObjectLiteral`). */
module ToolHandlers {

  import opened Wrappers
  import opened JsValue
  import opened ObjectLiteral
  import opened QueryParams
  import opened Endpoints

  // ------------------------------------------------------------- shapes

  /** `{ id }`. */
  function IdObject(id: int): Json {
    JObject(map["id" := JNumber(id)])
  }

  /** `{ text }` with a text that may be `null`. */
  function TextObject(text: Nullable<string>): (v: Json)
    ensures v.JObject? && v.fields.Keys == {"text"} && Get(v.fields, "text") == Some(NullableText(text))
    ensures Get(v.fields, "text") == Some(JNull) <==> text.Null?
  {
    JObject(map["text" := NullableText(text)])
  }

  function Strings(xs: seq<string>): (v: Json)
    ensures v.JArray? && |v.items| == |xs|
    ensures forall i :: 0 <= i < |xs| ==> v.items[i] == JString(xs[i])
    decreases |xs|
  {
    if xs == [] then JArray([]) else JArray([JString(xs[0])] + Strings(xs[1..]).items)
  }

  /** The `questions` array: one `{ text }` per question, in order. */
  function Questions(questions: seq<string>): (v: Json)
    ensures v.JArray? && |v.items| == |questions|
    ensures forall i :: 0 <= i < |questions| ==> v.items[i] == TextObject(NonNull(questions[i]))
    decreases |questions|
  {
    if questions == [] then JArray([])
    else JArray([TextObject(NonNull(questions[0]))] + Questions(questions[1..]).items)
  }

  /** A `z.record(z.string())` argument: its string values under its keys. */
  function Record(entries: map<string, string>): (v: Json)
    ensures v.JObject? && v.fields.Keys == entries.Keys
    ensures forall k :: k in entries ==> v.fields[k] == JString(entries[k])
  {
    JObject(map k | k in entries :: JString(entries[k]))
  }

  function OptionalText(s: Option<string>): Option<Json> {
    if s.Some? then Some(JString(s.value)) else None
  }

  function OptionalStrings(xs: Option<seq<string>>): Option<Json> {
    if xs.Some? then Some(Strings(xs.value)) else None
  }

  function OptionalRecord(r: Option<map<string, string>>): Option<Json> {
    if r.Some? then Some(Record(r.value)) else None
  }

  /** `{ id }` for a truthy identifier, nothing for `0` or `undefined`. */
  function OptionalId(id: Option<int>): (v: Option<Json>)
    ensures v.Some? <==> NumberGiven(id)
    ensures v.Some? ==> v.value == IdObject(id.value)
  {
    if NumberGiven(id) then Some(IdObject(id.value)) else None
  }

  // ----------------------------------------------------- getLibraryEntry

  /** `inlineMergeVariables ? ["@mergeVariables"] : undefined`. */
  function MergeVariablesInline(flag: Option<bool>): (inline: Option<seq<string>>)
    ensures inline.Some? <==> flag == Some(true)
    ensures inline.Some? ==> inline.value == ["@mergeVariables"]
  {
    if flag == Some(true) then Some(["@mergeVariables"]) else None
  }

  /** The tool asks the client for merged variables exactly when the flag
      is set: the query carries `inline[]=@mergeVariables` then, and no
      `inline[]` otherwise. */
  lemma MergeVariablesQuery(flag: Option<bool>)
    ensures ValuesOf(InlineQuery(MergeVariablesInline(flag)), "inline[]")
              == if flag == Some(true) then ["@mergeVariables"] else []
  {
  }

  // -------------------------------------------------- createLibraryEntry

  datatype LibraryEntryArgs = LibraryEntryArgs(
    questions: seq<string>,
    answerText: Nullable<string>,
    stackId: int,
    categoryId: Option<int>,
    subCategoryId: Option<int>,
    languageCode: Option<string>,
    tags: Option<seq<string>>)

  /** The `location` object: the stack always, the category and the
      subcategory only for truthy identifiers. */
  function Location(stackId: int, categoryId: Option<int>, subCategoryId: Option<int>): (fields: Fields)
    ensures Get(fields, "stack") == Some(IdObject(stackId))
    ensures Get(fields, "category") == OptionalId(categoryId)
    ensures Get(fields, "subCategory") == OptionalId(subCategoryId)
    ensures fields.Keys == {"stack"}
              + (if NumberGiven(categoryId) then {"category"} else {})
              + (if NumberGiven(subCategoryId) then {"subCategory"} else {})
  {
    var stack := With(map[], "stack", Some(IdObject(stackId)));
    var category := With(stack, "category", OptionalId(categoryId));
    With(category, "subCategory", OptionalId(subCategoryId))
  }

  /** The body of `createLibraryEntry`: questions, answer and location
      always, `languageCode` and `tags` when given. */
  function LibraryEntry(args: LibraryEntryArgs): (fields: Fields)
    ensures Get(fields, "questions") == Some(Questions(args.questions))
    ensures Get(fields, "answer") == Some(TextObject(args.answerText))
    ensures Get(fields, "location") == Some(JObject(Location(args.stackId, args.categoryId, args.subCategoryId)))
    ensures Get(fields, "languageCode") == OptionalText(args.languageCode)
    ensures Get(fields, "tags") == OptionalStrings(args.tags)
    ensures fields.Keys == {"questions", "answer", "location"}
              + (if args.languageCode.Some? then {"languageCode"} else {})
              + (if args.tags.Some? then {"tags"} else {})
  {
    EntryFields(
      Questions(args.questions), TextObject(args.answerText),
      JObject(Location(args.stackId, args.categoryId, args.subCategoryId)),
      OptionalText(args.languageCode), OptionalStrings(args.tags))
  }

  /** The library entry object from its already shaped parts. */
  function EntryFields(questions: Json, answer: Json, location: Json, languageCode: Option<Json>, tags: Option<Json>): (fields: Fields)
    ensures Get(fields, "questions") == Some(questions)
    ensures Get(fields, "answer") == Some(answer)
    ensures Get(fields, "location") == Some(location)
    ensures Get(fields, "languageCode") == languageCode
    ensures Get(fields, "tags") == tags
    ensures fields.Keys == {"questions", "answer", "location"}
              + (if languageCode.Some? then {"languageCode"} else {})
              + (if tags.Some? then {"tags"} else {})
  {
    var required := map["questions" := questions, "answer" := answer, "location" := location];
    With(With(required, "languageCode", languageCode), "tags", tags)
  }

  // --------------------------------------------- bulkCreateLibraryEntries

  /** One element of the `entries` argument; its answer text is never null. */
  datatype BulkEntryArgs = BulkEntryArgs(
    questions: seq<string>,
    answerText: string,
    stackId: int,
    categoryId: Option<int>,
    subCategoryId: Option<int>,
    languageCode: Option<string>,
    tags: Option<seq<string>>)

  function AsEntryArgs(e: BulkEntryArgs): LibraryEntryArgs {
    LibraryEntryArgs(e.questions, NonNull(e.answerText), e.stackId, e.categoryId, e.subCategoryId, e.languageCode, e.tags)
  }

  /** `entries.map(...)`: each entry becomes the body a single create would
      send. */
  function BulkLibraryEntries(entries: seq<BulkEntryArgs>): (bodies: seq<Json>)
    ensures |bodies| == |entries|
    ensures forall i :: 0 <= i < |entries| ==> bodies[i] == JObject(LibraryEntry(AsEntryArgs(entries[i])))
    decreases |entries|
  {
    if entries == [] then []
    else [JObject(LibraryEntry(AsEntryArgs(entries[0])))] + BulkLibraryEntries(entries[1..])
  }

  /** Every bulk body carries a non-null answer text. */
  lemma BulkAnswers(entries: seq<BulkEntryArgs>, i: nat)
    requires i < |entries|
    ensures var body := BulkLibraryEntries(entries)[i];
      body.JObject? && Get(body.fields, "answer") == Some(TextObject(NonNull(entries[i].answerText)))
  {
  }

  // ------------------------------------ createProject and createProjectFromTemplate

  datatype ProjectType = RFP | RFI | DDQ | SQ | PP | OTHER

  /** The project type names the `z.enum` accepts. */
  const ProjectTypeNames: set<string> := {"RFP", "RFI", "DDQ", "SQ", "PP", "OTHER"}

  /** The name a project type is sent by. */
  function ProjectTypeName(t: ProjectType): (name: string)
    ensures name in ProjectTypeNames
    ensures ProjectTypeOf(name) == Some(t)
  {
    match t
    case RFP => "RFP"
    case RFI => "RFI"
    case DDQ => "DDQ"
    case SQ => "SQ"
    case PP => "PP"
    case OTHER => "OTHER"
  }

  /** Reads a project type back from its name, as the enum validates it. */
  function ProjectTypeOf(name: string): (t: Option<ProjectType>)
    ensures t.Some? <==> name in ProjectTypeNames
  {
    if name == "RFP" then Some(RFP)
    else if name == "RFI" then Some(RFI)
    else if name == "DDQ" then Some(DDQ)
    else if name == "SQ" then Some(SQ)
    else if name == "PP" then Some(PP)
    else if name == "OTHER" then Some(OTHER)
    else None
  }

  /** Different project types are sent by different names. */
  lemma ProjectTypeNameInjective(a: ProjectType, b: ProjectType)
    requires ProjectTypeName(a) == ProjectTypeName(b)
    ensures a == b
  {
    assert ProjectTypeOf(ProjectTypeName(a)) == Some(a);
    assert ProjectTypeOf(ProjectTypeName(b)) == Some(b);
  }

  datatype ProjectArgs = ProjectArgs(
    name: string,
    projectType: ProjectType,
    companyName: string,
    dueDate: string,
    description: Option<string>,
    ownerId: Option<int>,
    customProjectFieldValues: Option<map<string, string>>,
    mergeVariableValues: Option<map<string, string>>)

  datatype TemplateProjectArgs = TemplateProjectArgs(
    projectTemplateId: int,
    name: string,
    projectType: ProjectType,
    companyName: string,
    dueDate: string,
    description: Option<string>,
    ownerId: Option<int>)

  /** `description || null`: an absent or empty description is sent as
      `null`. */
  function DescriptionValue(description: Option<string>): (v: Json)
    ensures v == JNull <==> !TextGiven(description)
    ensures TextGiven(description) ==> v == JString(description.value)
  {
    if TextGiven(description) then JString(description.value) else JNull
  }

  /** The properties both project-creating tools send: the four required
      ones, the description (possibly `null`), and the owner for a truthy
      owner identifier. */
  function ProjectCore(
    name: string, projectType: ProjectType, companyName: string, dueDate: string,
    description: Option<string>, ownerId: Option<int>): (fields: Fields)
    ensures Get(fields, "name") == Some(JString(name))
    ensures Get(fields, "projectType") == Some(JString(ProjectTypeName(projectType)))
    ensures Get(fields, "companyName") == Some(JString(companyName))
    ensures Get(fields, "dueDate") == Some(JString(dueDate))
    ensures Get(fields, "description") == Some(DescriptionValue(description))
    ensures Get(fields, "owner") == OptionalId(ownerId)
    ensures fields.Keys == {"name", "projectType", "companyName", "dueDate", "description"}
              + (if NumberGiven(ownerId) then {"owner"} else {})
  {
    var required := map[
      "name" := JString(name),
      "projectType" := JString(ProjectTypeName(projectType)),
      "companyName" := JString(companyName),
      "dueDate" := JString(dueDate),
      "description" := DescriptionValue(description)];
    With(required, "owner", OptionalId(ownerId))
  }

  /** The body of `createProject`: the common properties, then the two
      value maps when given. */
  function NewProject(args: ProjectArgs): (fields: Fields)
    ensures Get(fields, "name") == Some(JString(args.name))
    ensures Get(fields, "projectType") == Some(JString(ProjectTypeName(args.projectType)))
    ensures Get(fields, "companyName") == Some(JString(args.companyName))
    ensures Get(fields, "dueDate") == Some(JString(args.dueDate))
    ensures Get(fields, "description") == Some(DescriptionValue(args.description))
    ensures Get(fields, "owner") == OptionalId(args.ownerId)
    ensures Get(fields, "customProjectFieldValues") == OptionalRecord(args.customProjectFieldValues)
    ensures Get(fields, "mergeVariableValues") == OptionalRecord(args.mergeVariableValues)
    ensures fields.Keys == {"name", "projectType", "companyName", "dueDate", "description"}
              + (if NumberGiven(args.ownerId) then {"owner"} else {})
              + (if args.customProjectFieldValues.Some? then {"customProjectFieldValues"} else {})
              + (if args.mergeVariableValues.Some? then {"mergeVariableValues"} else {})
  {
    var core := ProjectCore(args.name, args.projectType, args.companyName, args.dueDate, args.description, args.ownerId);
    var custom := With(core, "customProjectFieldValues", OptionalRecord(args.customProjectFieldValues));
    With(custom, "mergeVariableValues", OptionalRecord(args.mergeVariableValues))
  }

  /** The body of `createProjectFromTemplate` (the template identifier goes
      into the path, not the body). */
  function ProjectFromTemplate(args: TemplateProjectArgs): (fields: Fields)
    ensures Get(fields, "name") == Some(JString(args.name))
    ensures Get(fields, "projectType") == Some(JString(ProjectTypeName(args.projectType)))
    ensures Get(fields, "companyName") == Some(JString(args.companyName))
    ensures Get(fields, "dueDate") == Some(JString(args.dueDate))
    ensures Get(fields, "description") == Some(DescriptionValue(args.description))
    ensures Get(fields, "owner") == OptionalId(args.ownerId)
    ensures fields.Keys == {"name", "projectType", "companyName", "dueDate", "description"}
              + (if NumberGiven(args.ownerId) then {"owner"} else {})
  {
    ProjectCore(args.name, args.projectType, args.companyName, args.dueDate, args.description, args.ownerId)
  }

  /** A project from a template is described exactly as a new project
      without value maps. */
  lemma TemplateAsNewProject(args: TemplateProjectArgs)
    ensures ProjectFromTemplate(args)
              == NewProject(ProjectArgs(args.name, args.projectType, args.companyName, args.dueDate, args.description, args.ownerId, None, None))
  {
  }

  // -------------------------------------------------- createProjectEntry

  datatype ProjectEntryArgs = ProjectEntryArgs(
    projectId: int,
    sectionId: Option<int>,
    subSectionId: Option<int>,
    question: string,
    answerText: Option<Nullable<string>>)

  function OptionalNumber(n: Option<int>): Option<Json> {
    if n.Some? then Some(JNumber(n.value)) else None
  }

  /** `answerText !== undefined ? { text: answerText } : undefined`. */
  function OptionalAnswer(answerText: Option<Nullable<string>>): (v: Option<Json>)
    ensures v.Some? <==> answerText.Some?
    ensures answerText.Some? ==> v.value == TextObject(answerText.value)
  {
    if answerText.Some? then Some(TextObject(answerText.value)) else None
  }

  /** The body of `createProjectEntry`. Section identifiers are sent when
      defined, `0` included; the answer is sent exactly when the answer
      text is defined, as `{ text: null }` for a null text. */
  function NewProjectEntry(args: ProjectEntryArgs): (fields: Fields)
    ensures Get(fields, "projectId") == Some(JNumber(args.projectId))
    ensures Get(fields, "sectionId") == OptionalNumber(args.sectionId)
    ensures Get(fields, "subSectionId") == OptionalNumber(args.subSectionId)
    ensures Get(fields, "question") == Some(JString(args.question))
    ensures Get(fields, "answer").Some? <==> args.answerText.Some?
    ensures args.answerText.Some? ==> Get(fields, "answer") == Some(TextObject(args.answerText.value))
    ensures fields.Keys == {"projectId", "question"}
              + (if args.sectionId.Some? then {"sectionId"} else {})
              + (if args.subSectionId.Some? then {"subSectionId"} else {})
              + (if args.answerText.Some? then {"answer"} else {})
  {
    ProjectEntryFields(
      JNumber(args.projectId), OptionalNumber(args.sectionId), OptionalNumber(args.subSectionId),
      JString(args.question), OptionalAnswer(args.answerText))
  }

  /** The project entry object from its already shaped parts. */
  function ProjectEntryFields(projectId: Json, sectionId: Option<Json>, subSectionId: Option<Json>, question: Json, answer: Option<Json>): (fields: Fields)
    ensures Get(fields, "projectId") == Some(projectId)
    ensures Get(fields, "sectionId") == sectionId
    ensures Get(fields, "subSectionId") == subSectionId
    ensures Get(fields, "question") == Some(question)
    ensures Get(fields, "answer") == answer
    ensures fields.Keys == {"projectId", "question"}
              + (if sectionId.Some? then {"sectionId"} else {})
              + (if subSectionId.Some? then {"subSectionId"} else {})
              + (if answer.Some? then {"answer"} else {})
  {
    var required := map["projectId" := projectId, "question" := question];
    var withSection := if sectionId.Some? then required["sectionId" := sectionId.value] else required;
    var withSubSection := if subSectionId.Some? then withSection["subSectionId" := subSectionId.value] else withSection;
    if answer.Some? then withSubSection["answer" := answer.value] else withSubSection
  }

  /** A null answer text is sent as `{ text: null }`, not dropped. */
  lemma NullAnswerSent(args: ProjectEntryArgs)
    requires args.answerText == Some(Null)
    ensures Get(NewProjectEntry(args), "answer") == Some(JObject(map["text" := JNull]))
  {
  }

  // ------------------------------------------------------- update objects

  /** The `updates` of `updateProjectEntry`: a key for each argument that
      is not `undefined`. */
  function ProjectEntryUpdate(question: Option<string>, answerText: Option<Nullable<string>>): (fields: Fields)
    ensures Get(fields, "question") == OptionalText(question)
    ensures Get(fields, "answer") == OptionalAnswer(answerText)
    ensures fields.Keys == (if question.Some? then {"question"} else {}) + (if answerText.Some? then {"answer"} else {})
  {
    With(With(map[], "question", OptionalText(question)), "answer", OptionalAnswer(answerText))
  }

  /** The `updates` of `updateProjectSection` and `updateProjectSubSection`:
      a key for each argument that is not `undefined`, so a position of `0`
      is sent. */
  function SectionUpdate(name: Option<string>, position: Option<int>): (fields: Fields)
    ensures Get(fields, "name") == OptionalText(name)
    ensures Get(fields, "position") == OptionalNumber(position)
    ensures fields.Keys == (if name.Some? then {"name"} else {}) + (if position.Some? then {"position"} else {})
  {
    With(With(map[], "name", OptionalText(name)), "position", OptionalNumber(position))
  }
}

=== FILE: url_encoding.dfy ===
/** The `application/x-www-form-urlencoded` serializer that
    `URLSearchParams.prototype.toString()` applies (section 5.2 of the WHATWG
    URL Standard): every name and value is UTF-8 encoded and percent-encoded
    with the form-urlencoded percent-encode set, a space becomes `+`, each
    tuple becomes `name=value`, and the tuples are joined with `&`. */
module UrlEncoding {

  /** One query tuple: a name and a value. */
  type Pair = (string, string)

  /** Code points the form-urlencoded percent-encode set leaves as they are:
      ASCII alphanumerics and `*`, `-`, `.`, `_`. */
  predicate Unreserved(c: char) {
    || 'a' <= c <= 'z'
    || 'A' <= c <= 'Z'
    || '0' <= c <= '9'
    || c == '*' || c == '-' || c == '.' || c == '_'
  }

  predicate AllUnreserved(s: string) {
    forall i :: 0 <= i < |s| ==> Unreserved(s[i])
  }

  /** Characters that can occur in encoded output. */
  predicate Encoded(c: char) {
    Unreserved(c) || c == '+' || c == '%'
  }

  predicate AllEncoded(s: string) {
    forall i :: 0 <= i < |s| ==> Encoded(s[i])
  }

  /** The UTF-8 bytes of one Unicode scalar value. */
  function Utf8(c: char): (bytes: seq<nat>)
    ensures 1 <= |bytes| <= 4
    ensures forall i :: 0 <= i < |bytes| ==> bytes[i] < 256
    ensures |bytes| == 1 <==> c as int < 0x80
  {
    var cp := c as int;
    if cp < 0x80 then [cp]
    else if cp < 0x800 then [0xC0 + cp / 0x40, 0x80 + cp % 0x40]
    else if cp < 0x1_0000 then [0xE0 + cp / 0x1000, 0x80 + (cp / 0x40) % 0x40, 0x80 + cp % 0x40]
    else [0xF0 + cp / 0x4_0000, 0x80 + (cp / 0x1000) % 0x40, 0x80 + (cp / 0x40) % 0x40, 0x80 + cp % 0x40]
  }

  function HexDigit(d: nat): (c: char)
    requires d < 16
    ensures Unreserved(c)
  {
    "0123456789ABCDEF"[d]
  }

  /** `%XX` for one byte, with upper-case hexadecimal digits. */
  function Escape(b: nat): (s: string)
    requires b < 256
    ensures |s| == 3 && s[0] == '%' && AllEncoded(s)
  {
    ['%', HexDigit(b / 16), HexDigit(b % 16)]
  }

  /** `%XX` for each byte, in order. */
  function PercentBytes(bytes: seq<nat>): (s: string)
    requires forall i :: 0 <= i < |bytes| ==> bytes[i] < 256
    ensures |s| == 3 * |bytes|
    ensures AllEncoded(s)
    ensures forall j :: 0 <= j < |bytes| ==> s[3 * j..3 * j + 3] == Escape(bytes[j])
    decreases |bytes|
  {
    if bytes == [] then ""
    else
      var head, rest := Escape(bytes[0]), PercentBytes(bytes[1..]);
      EncodedConcat(head, rest);
      assert forall j :: 0 <= j < |bytes| ==> (head + rest)[3 * j..3 * j + 3] == Escape(bytes[j]) by {
        forall j | 0 <= j < |bytes|
          ensures (head + rest)[3 * j..3 * j + 3] == Escape(bytes[j])
        {
          if j == 0 {
            assert (head + rest)[0..3] == head;
          } else {
            assert (head + rest)[3 * j..3 * j + 3] == rest[3 * (j - 1)..3 * (j - 1) + 3];
            assert bytes[1..][j - 1] == bytes[j];
          }
        }
      }
      head + rest
  }

  /** The encoding of one code point. */
  function EncodeChar(c: char): (s: string)
    ensures |s| > 0 && AllEncoded(s)
    ensures Unreserved(c) ==> s == [c]
    ensures c == ' ' ==> s == "+"
    ensures !Unreserved(c) && c != ' ' ==> |s| == 3 * |Utf8(c)| && forall j :: 0 <= j < |Utf8(c)| ==>
              s[3 * j..3 * j + 3] == Escape(Utf8(c)[j])
  {
    if Unreserved(c) then [c]
    else if c == ' ' then "+"
    else PercentBytes(Utf8(c))
  }

  /** The encoding of a name or a value. */
  function Encode(s: string): (r: string)
    ensures |r| >= |s|
    ensures r == "" <==> s == ""
    decreases |s|
  {
    if s == [] then "" else EncodeChar(s[0]) + Encode(s[1..])
  }

  /** Characters that can occur in a serialized query: encoded text and
      the two separators. */
  predicate QueryChar(c: char) {
    Encoded(c) || c == '=' || c == '&'
  }

  function EncodePair(p: Pair): string {
    Encode(p.0) + "=" + Encode(p.1)
  }

  /** `URLSearchParams.prototype.toString()` of a tuple list. */
  function Serialize(pairs: seq<Pair>): (r: string)
    ensures r == "" <==> pairs == []
    decreases |pairs|
  {
    if pairs == [] then ""
    else if |pairs| == 1 then EncodePair(pairs[0])
    else EncodePair(pairs[0]) + "&" + Serialize(pairs[1..])
  }

  /** Splits text at every occurrence of `sep`; the reading side of the
      serializer. */
  function Split(s: string, sep: char): (parts: seq<string>)
    ensures |parts| >= 1
    decreases |s|
  {
    if s == [] then [""]
    else
      var rest := Split(s[1..], sep);
      if s[0] == sep then [""] + rest else [[s[0]] + rest[0]] + rest[1..]
  }

  /** The encoded tuples, in order. */
  function EncodePairs(pairs: seq<Pair>): (r: seq<string>)
    ensures |r| == |pairs|
    ensures forall i :: 0 <= i < |pairs| ==> r[i] == EncodePair(pairs[i])
    decreases |pairs|
  {
    if pairs == [] then [] else [EncodePair(pairs[0])] + EncodePairs(pairs[1..])
  }

  lemma EncodedConcat(a: string, b: string)
    requires AllEncoded(a) && AllEncoded(b)
    ensures AllEncoded(a + b)
  {
    forall i | 0 <= i < |a + b|
      ensures Encoded((a + b)[i])
    {
      if i >= |a| {
        assert (a + b)[i] == b[i - |a|];
      }
    }
  }

  /** Encoded text consists of unreserved characters, `+` and `%` only. */
  lemma {:induction false} EncodeAlphabet(s: string)
    ensures AllEncoded(Encode(s))
    decreases |s|
  {
    if s != [] {
      EncodeAlphabet(s[1..]);
      EncodedConcat(EncodeChar(s[0]), Encode(s[1..]));
    }
  }

  predicate AllQueryChars(s: string) {
    forall i :: 0 <= i < |s| ==> QueryChar(s[i])
  }

  /** Joining two texts of the query alphabet with a separator from it stays
      in the alphabet. */
  lemma QueryCharsJoin(a: string, sep: char, b: string)
    requires AllQueryChars(a) && QueryChar(sep) && AllQueryChars(b)
    ensures AllQueryChars(a + [sep] + b)
  {
    var w := a + [sep] + b;
    forall i | 0 <= i < |w|
      ensures QueryChar(w[i])
    {
      if i < |a| {
        assert w[i] == a[i];
      } else if i > |a| {
        assert w[i] == b[i - |a| - 1];
      }
    }
  }

  lemma EncodePairAlphabet(p: Pair)
    ensures AllQueryChars(EncodePair(p))
  {
    var name, value := Encode(p.0), Encode(p.1);
    EncodeAlphabet(p.0);
    EncodeAlphabet(p.1);
    assert AllQueryChars(name) && AllQueryChars(value);
    QueryCharsJoin(name, '=', value);
  }

  /** A serialized query consists of encoded text, `=` and `&` only; in
      particular it holds no `?` or `#`. */
  lemma {:induction false} SerializeAlphabet(pairs: seq<Pair>)
    ensures AllQueryChars(Serialize(pairs))
    ensures '?' !in Serialize(pairs) && '#' !in Serialize(pairs)
    decreases |pairs|
  {
    if pairs != [] {
      EncodePairAlphabet(pairs[0]);
      if |pairs| > 1 {
        SerializeAlphabet(pairs[1..]);
        QueryCharsJoin(EncodePair(pairs[0]), '&', Serialize(pairs[1..]));
        assert Serialize(pairs) == EncodePair(pairs[0]) + "&" + Serialize(pairs[1..]);
      }
    }
    QueryCharsExclude(Serialize(pairs));
  }

  lemma QueryCharsExclude(s: string)
    requires AllQueryChars(s)
    ensures '?' !in s && '#' !in s
  {
    forall i | 0 <= i < |s|
      ensures s[i] != '?' && s[i] != '#'
    {
      assert QueryChar(s[i]);
    }
  }

  lemma {:induction false} EncodeUnreserved(s: string)
    requires AllUnreserved(s)
    ensures Encode(s) == s
    decreases |s|
  {
    if s != [] {
      EncodeUnreserved(s[1..]);
    }
  }

  lemma {:induction false} SplitWithout(s: string, sep: char)
    requires sep !in s
    ensures Split(s, sep) == [s]
    decreases |s|
  {
    if s != [] {
      SplitWithout(s[1..], sep);
      assert [s[0]] + s[1..] == s;
    }
  }

  lemma {:induction false} SplitAt(a: string, sep: char, b: string)
    requires sep !in a
    ensures Split(a + [sep] + b, sep) == [a] + Split(b, sep)
    decreases |a|
  {
    var s := a + [sep] + b;
    if a == [] {
      assert s[1..] == b;
    } else {
      assert s[1..] == a[1..] + [sep] + b;
      SplitAt(a[1..], sep, b);
      assert [a[0]] + a[1..] == a;
    }
  }

  lemma AllEncodedExcludes(s: string, c: char)
    requires AllEncoded(s)
    requires !Encoded(c)
    ensures c !in s
  {
  }

  /** Splitting one encoded tuple at `=` yields its encoded name and value. */
  lemma SplitPair(p: Pair)
    ensures Split(EncodePair(p), '=') == [Encode(p.0), Encode(p.1)]
  {
    EncodeAlphabet(p.0);
    EncodeAlphabet(p.1);
    AllEncodedExcludes(Encode(p.0), '=');
    AllEncodedExcludes(Encode(p.1), '=');
    SplitAt(Encode(p.0), '=', Encode(p.1));
    SplitWithout(Encode(p.1), '=');
  }

  /** Splitting a non-empty serialization at `&` yields one piece per tuple,
      in order: no name or value can contribute a separator. */
  lemma {:induction false} SplitSerialize(pairs: seq<Pair>)
    requires pairs != []
    ensures Split(Serialize(pairs), '&') == EncodePairs(pairs)
    decreases |pairs|
  {
    var head := EncodePair(pairs[0]);
    EncodeAlphabet(pairs[0].0);
    EncodeAlphabet(pairs[0].1);
    AllEncodedExcludes(Encode(pairs[0].0), '&');
    AllEncodedExcludes(Encode(pairs[0].1), '&');
    assert '&' !in head;
    if |pairs| == 1 {
      SplitWithout(head, '&');
    } else {
      SplitAt(head, '&', Serialize(pairs[1..]));
      SplitSerialize(pairs[1..]);
    }
  }

  /** A tuple whose name and value need no escaping is sent as written. */
  lemma EncodePairUnreserved(p: Pair)
    requires AllUnreserved(p.0) && AllUnreserved(p.1)
    ensures EncodePair(p) == p.0 + "=" + p.1
  {
    EncodeUnreserved(p.0);
    EncodeUnreserved(p.1);
  }

  /** Two tuples whose names and values need no escaping serialize as
      `name=value&name=value`. */
  lemma SerializeTwoUnreserved(a: Pair, b: Pair)
    requires AllUnreserved(a.0) && AllUnreserved(a.1) && AllUnreserved(b.0) && AllUnreserved(b.1)
    ensures Serialize([a, b]) == a.0 + "=" + a.1 + "&" + b.0 + "=" + b.1
  {
    assert [a, b][1..] == [b];
    EncodePairUnreserved(a);
    EncodePairUnreserved(b);
  }

  /** The query of a list call given a page and a page size whose texts
      need no escaping (decimal digits, for instance). */
  lemma SerializePageQuery(page: string, pageSize: string)
    requires AllUnreserved(page) && AllUnreserved(pageSize)
    ensures Serialize([("page", page), ("pageSize", pageSize)])
            == "page" + "=" + page + "&" + "pageSize" + "=" + pageSize
  {
    assert AllUnreserved("page") && AllUnreserved("pageSize");
    SerializeTwoUnreserved(("page", page), ("pageSize", pageSize));
  }
}

=== FILE: wrappers.dfy ===
/** The optional-value datatype used for every `?:` field and every
    argument that may be `undefined` in the modelled program. */
module Wrappers {

  datatype Option<+T> = None | Some(value: T)
}
